=== FILE: README.md ===
# Recruiting chat client: a Dafny model

This project models the client side of an AI recruiting assistant built on
Streamlit (`main_lambda.py`) and its message schema (`schema.py`). Each
script run is modelled as pure functions from the session state and the
run's inputs to the next session state:

- **Schema** is the `ChatMessage` record and its three payloads. It covers
  pydantic's validation of a raw dictionary, including its smart-mode
  choice among the payload shapes, and `model_dump`. Generated ids and timestamps are
  parameters.
- **Threading** builds a new user message's context: the id of the last AI
  message, and the "past AI responses" between the previous user message
  and the new one.
- **Api** is `call_ai_response_api`. The HTTP exchange and `json.loads` are
  inputs. Each failure path yields the empty envelope and its own notice.
- **Session** covers the session state and its initialisation, and both
  turn entry points (`send_user_action`, `process_user_text_input`).
  - A turn appends the user message, then calls the backend, then applies
    `updated_state` to existing keys only, then appends the AI responses.
  - An uncaught exception is an explicit crash outcome, holding the state
    reached by then.
  - "Start Agent" is modelled here too.
- **Jobs** is selection in the job list: select all, clear all, the
  per-card checkbox, and the batch `CLICKED_JOB_APPLY` action.
- **Forms, ApplicationForm, ProfileForm** are the two forms: widget
  defaults, `form_data`, required-field validation and the cleaning of
  submitted values. The application form sends `FORM_SUBMISSION`. The
  profile form detects changes and sends only the changed fields.
- **Dispatch** covers:
  - re-validating the history and dispatching on the component name;
  - the job list properties, the retry button, and the next-step buttons;
  - the quick actions, the confetti, and which screen `main` shows.

## Model

| member | source | states |
|---|---|---|
| Schema.ParseSender | schema.py:26 | `sender` is accepted exactly when it is "user" or "ai", and the parsed sender names that string |
| Json.FalsyValues | main_lambda.py:1396 | Python truth testing, as in this condition: None, False, 0, the empty string, list and dictionary are false, every other value true |
| Schema.ParseType | schema.py:28 | `type` is accepted exactly when it is one of the three literals, and the parsed type names that literal |
| Schema.ParsePayload | schema.py:8-29 | a payload parses exactly when it has the shape of one of the three payload models; as in pydantic's smart union, a component shape wins over an action shape, and both win over a text shape; the fields are copied |
| Schema.ModelValidate | schema.py:21-31 | validation succeeds exactly on a dictionary with no field error; a failure lists at least one error; a success carries the given id, sender, timestamp, type, payload, context and metadata, with defaults for a missing id, timestamp, context and metadata |
| Schema.FieldErrorsNameFailures | schema.py:25-31 | the error list names each failing field exactly once, and no other: an optional id, timestamp, context or metadata fails only when present with the wrong type; sender, type and payload fail when missing or rejected |
| Schema.PayloadRoundTrip | schema.py:8-17 | dumping any payload and parsing the dump gives the same payload back, despite the union's preference for the larger models |
| Schema.DumpValidateRoundTrip | schema.py:21-31 | `model_validate(model_dump(m)) == m` for every message, whatever defaults validation would otherwise use |
| Schema.NewUserMessage | main_lambda.py:1470-1475 | a user message built from an input gets id "msg_" + uuid, sender user, a type that matches the input, that input's payload, and the given context |
| Schema.TypeNotTiedToPayload | schema.py:28-29 | a message typed 'text' with an action payload passes validation: the schema does not tie the type to the payload |
| Schema.BadSenderRejected | schema.py:26 | a missing sender, or one other than "user"/"ai", fails validation |
| Schema.BadTypeRejected | schema.py:28 | a missing type, or one outside the three literals, fails validation |
| Schema.ShapelessPayloadRejected | schema.py:29 | a payload that matches none of the three shapes fails validation |
| Threading.PastAiResponses | main_lambda.py:1482-1496 | with fewer than two user messages the result is empty; otherwise it is the entries strictly between the previous user message and the last entry |
| Threading.ScanBack | main_lambda.py:1488-1496 | the backward scan returns nothing when fewer than two user messages have been seen, and otherwise the entries after the previous user message, without the last entry |
| Threading.PreviousUserUnique | main_lambda.py:1488-1496 | the backward scan stops at exactly one entry, the second user message from the end |
| Threading.PastEndsBeforeLast | main_lambda.py:1495 | the result is a contiguous run that ends just before the last entry and never includes it |
| Threading.PastHoldsNoUser | main_lambda.py:1477-1496 | when the last entry is the user message just appended, the past responses hold no user message |
| Threading.ThreadingExample | main_lambda.py:1482-1498 | on a concrete log, the two AI replies after the earlier user message are returned |
| Threading.LastAiMessageId | main_lambda.py:1447-1452 | the id of the most recent AI message, or None when the log has none |
| Threading.CreateUserContext | main_lambda.py:1454-1462 | the context holds the profile id and session id; `in_response_to` is present exactly when the given id is truthy, and then equals it |
| Threading.ThreadContextAnswersLastAi | main_lambda.py:1447-1462 | a threaded context answers the most recent AI message whenever that message has a truthy id, and never answers any other message |
| Api.RequestBody | main_lambda.py:44-48 | the posted body holds only the profile id and the current user message |
| Api.Unwrap | main_lambda.py:87-107 | on a decoded reply: a dictionary without `body` is the result; a string `body` is decoded, and a decode failure gives the parse notice; Python's `in` on lists and strings, and the TypeErrors of other values, are modelled |
| Api.CallAiResponseApi | main_lambda.py:36-107 | no key, a timeout, a network failure, a 403, an error status and an undecodable reply each give the empty envelope with their own notice; any notice implies the empty envelope |
| Api.UnwrapsEncodedBody | main_lambda.py:87-91 | a gateway reply that wraps its payload as JSON text under `body` yields the payload |
| Api.DirectReplyPassesThrough | main_lambda.py:92-94 | a successful reply without `body` is returned as it is |
| Session.InitialSession | main_lambda.py:129-145 | a new session holds the given id, an empty log and an empty selection; the flags `profile_id_submitted`, `show_confetti`, `has_job_list` and `profile_was_updated` are False; `interact_profile_id`, `profile`, `top_jobs`, `last_intent` and `last_profile_update` are None; so every attribute a turn reads is present |
| Session.InitializeSessionState | main_lambda.py:126-145 | a session that has an id is left alone; one without gets every initial attribute with its initial value, even over a key it already had, and keeps each of its other keys unchanged |
| Session.InitializeIdempotent | main_lambda.py:129 | running the initialisation on every rerun changes nothing after the first run |
| Session.ApplyUpdatedState | main_lambda.py:1519-1521 | the update never adds keys; existing keys take the updated value when one is given and keep theirs otherwise |
| Session.ApplyUpdatesInTurn | main_lambda.py:1519-1521 | setting attributes one at a time, in any key order, gives the same session as the simultaneous update |
| Session.NoUpdateKeepsSession | main_lambda.py:1519-1521 | an empty update changes nothing |
| Session.AppendResponses | main_lambda.py:1524-1530 | the append succeeds exactly when there are no responses, or the log is a list and every response is a dictionary; on a crash, the dictionaries before the first other value are already appended |
| Session.Reconcile | main_lambda.py:1584-1602 | succeeds exactly for a dictionary result whose update is a dictionary and whose responses are falsy or a list of dictionaries to append; keys are never added, non-log keys follow the update, responses are appended after the update, and only the text path warns when there are none |
| Session.EmptyEnvelopeReconciles | main_lambda.py:1594-1602 | the empty envelope leaves the session unchanged; only the text path warns |
| Session.ResponsesAppendedInOrder | main_lambda.py:1515-1530 | when the update leaves `messages` alone, the log grows by exactly the responses in order, and the warning shows only for no responses on the text path |
| Session.PrepareTurn | main_lambda.py:1464-1478 | the log grows by exactly the user message, which is a user entry threaded to the last AI message; no other key changes; the past responses hold no user message, and there are none before the first exchange |
| Session.PreparedMessageValidates | main_lambda.py:1470-1478 | the logged user message validates back to sender user, the input's type and payload, and the threaded context |
| Session.RunTurn | main_lambda.py:1464-1531 | a session without the log or ids crashes unchanged; one without the graph state crashes after logging the user message; a surviving turn keeps the key set; the body is sent only when there is a key, and is the profile id with the logged message; only text input warns |
| Session.RunTurnStages | main_lambda.py:1464-1531 | a turn on a well-formed session is the prepare stage followed by reconciliation of the call's result |
| Session.FailedCallOnlyAppendsUserMessage | main_lambda.py:1464-1531 | after a failed call, the log gained only the user message, other keys are unchanged, and the text path warns |
| Session.TurnGrowsLog | main_lambda.py:1464-1531 | a successful turn grows the log by the user message and then exactly the AI responses, in order |
| Session.PreparedThenReplied | main_lambda.py:1515-1530 | reconciling a reply on the prepared session appends the responses after the user message |
| Session.StartAgent | main_lambda.py:1633-1648 | an empty profile id changes nothing; otherwise the id is stored and the submitted flag is set (the only keys added), no other key but the log changes, and exactly one AI text message is appended, holding the welcome text and a context that names the id and the session |
| Jobs.SelectAll | main_lambda.py:675-677 | the selection holds exactly the truthy job ids of the list, in list order, and no more entries than jobs |
| Jobs.SelectAllAppend | main_lambda.py:676 | selecting all of two lists shown in sequence selects all of each, in order |
| Jobs.RemoveFirst | main_lambda.py:797-798 | removes the first occurrence, if any: the multiset loses one copy and nothing else changes |
| Jobs.RemoveAppended | main_lambda.py:793-798 | removing a just-appended absent value restores the list |
| Jobs.Toggle | main_lambda.py:783-799 | a job without a truthy id changes nothing; checking adds the id only if absent; clearing removes one copy; other ids keep their counts; a duplicate-free selection stays duplicate-free and then contains the id exactly when checked |
| Jobs.ToggleRoundTrip | main_lambda.py:787-799 | checking and then clearing a box restores the selection |
| Jobs.JobRecord | main_lambda.py:732-736 | a job record has exactly the keys jobId, jobTitle and company, with the defaults 'Unknown Title' and 'Unknown Company' |
| Jobs.SelectedJobData | main_lambda.py:729-736 | every record comes from a listed job whose id is selected, every listed job whose id is selected has its record sent, and there are at most as many records as jobs |
| Jobs.SelectedJobDataSingle | main_lambda.py:729-736 | one job contributes its record exactly when its id is selected; with the append lemma this fixes the records as the selected jobs' records, in list order |
| Jobs.SelectedJobDataAppend | main_lambda.py:729-736 | the records of a concatenated list are the concatenated records |
| Jobs.CoveringSelection | main_lambda.py:729-736 | with a selection holding exactly the truthy ids, the records sent are one per truthy-id job, in list order |
| Jobs.SelectAllThenApply | main_lambda.py:675-741 | "Select All" followed by "Apply" sends every job that has a truthy id, once each, in list order |
| Jobs.ApplySelected | main_lambda.py:712-741 | the apply button exists exactly when the selection is non-empty; it sends CLICKED_JOB_APPLY with the selected records and their count |
| Jobs.StaleSelectionSendsNothing | main_lambda.py:712-741 | a selection made in another list keeps the button on screen, yet it sends zero jobs |
| Jobs.NoJobsWarning | main_lambda.py:653-659 | query and location default to "your search" and "your location" for falsy criteria or missing keys; truthy criteria that are not a dictionary crash |
| Forms.BlankCases | main_lambda.py:1035 | a value is blank exactly when it is None, zero, or whitespace-only text |
| Forms.LastWins | main_lambda.py:869-891 | `form_data` has one key per distinct field id, and a later field with the same id overwrites an earlier one |
| Forms.LastWinsAligned | main_lambda.py:1095-1129 | two dictionaries built over the same ids agree pointwise on whatever the last-occurrence values agree on |
| Forms.FormData | main_lambda.py:869-1018 | every field id is a key, there are no other keys, and each key holds the widget value of its last field |
| ApplicationForm.YesNoDefaultIndex | main_lambda.py:890-897 | the radio preselects "No" exactly when the pre-filled value is the string "no" |
| ApplicationForm.SelectDefaultIndex | main_lambda.py:899-910 | a truthy pre-filled value among the options preselects its first occurrence; otherwise the first option |
| ApplicationForm.ExtensionsAsWritten | main_lambda.py:983-989 | an accepted type yields nothing exactly when it is neither a known MIME type nor contains '/'; otherwise it yields the single extension the corrected reading gives it |
| ApplicationForm.UploaderTypesAsWritten | main_lambda.py:969-989 | the uploader list as written is no longer than the accepted types and is empty exactly when every accepted type is neither a known MIME type nor contains '/' (see Findings) |
| ApplicationForm.KeptTypes | main_lambda.py:982-989 | the accepted types the loop keeps are exactly those that are a known MIME type or contain '/' |
| ApplicationForm.AsWrittenKeepsConvertible | main_lambda.py:982-989 | the list as written equals the corrected list of the kept types alone, in their order: dropping entries is its only departure from the corrected list |
| ApplicationForm.DefaultTypesDropped | main_lambda.py:969-989 | as written, the default formats pdf, doc and docx all vanish from the uploader's list |
| ApplicationForm.Extension | main_lambda.py:973-989 | a known MIME type maps to its extension; any other type containing '/' to the part after its last '/'; a bare extension is kept; no result contains '/' |
| ApplicationForm.UploaderTypes | main_lambda.py:969-989 | one extension per accepted type, in order |
| ApplicationForm.DefaultTypesKept | main_lambda.py:969 | with bare extensions kept, the defaults reach the uploader unchanged |
| ApplicationForm.TypesAgreeOnMimeTypes | main_lambda.py:982-989 | when every accepted type contains '/', the as-written list and the corrected list agree |
| ApplicationForm.IntendedFileTypes | main_lambda.py:969-989 | a field without `acceptedTypes` offers pdf, doc and docx; otherwise one extension per accepted type, in order, read as the corrected list reads it (see Findings) |
| ApplicationForm.DefaultFormatsFit | main_lambda.py:969-995 | with the corrected type list, an uploader without `acceptedTypes` takes exactly the files whose extension is one of the default formats |
| ApplicationForm.DefaultUploaderTakesAnyFile | main_lambda.py:969-995 | as written, an uploader without `acceptedTypes` receives an empty type list and so takes any file at all |
| ApplicationForm.AsWrittenAgreesOnMimeTypes | main_lambda.py:982-995 | when every accepted type contains '/', the uploader as written and the corrected one take the same files |
| ApplicationForm.KiloBytes | main_lambda.py:1002 | the size in kilobytes is within half a kilobyte, and ties round to even |
| ApplicationForm.UploadRecord | main_lambda.py:998-1005 | an upload record holds exactly the file name, the size in whole kilobytes followed by "KB", the MIME type, and the upload id "upload_" + field id + "_" + session id |
| ApplicationForm.FieldError | main_lambda.py:1030-1036 | there is no error exactly when the field is satisfied; a file field asks for an upload, any other field to be filled in |
| ApplicationForm.SatisfiedCases | main_lambda.py:1030-1036 | a required file field is satisfied by any upload; any other required field by a value other than None, zero and whitespace-only text; an optional field always |
| ApplicationForm.ValidationErrors | main_lambda.py:1023-1036 | every message asks for a field to be filled in or for an upload, and there are at most as many messages as fields |
| ApplicationForm.ValidationErrorsEmpty | main_lambda.py:1023-1041 | there are no messages exactly when every field is satisfied by its `form_data` value |
| ApplicationForm.ValidationErrorsSingle | main_lambda.py:1030-1036 | one field contributes its own message exactly when its value fails its check, and nothing otherwise |
| ApplicationForm.ValidationErrorsAppend | main_lambda.py:1029-1036 | the messages of two runs of fields are those of each run, one after the other, so the messages follow form order |
| ApplicationForm.ChoicesAlwaysSatisfy | main_lambda.py:890-923 | a required radio, a date picker, or a select box of non-blank options never fails validation with a value its widget can return |
| ApplicationForm.ZeroIsMissing | main_lambda.py:1035 | a required number field left at zero is reported as not filled in |
| ApplicationForm.Clean | main_lambda.py:1050-1059 | cleaning keeps the keys; exactly the uploads become dictionaries with an upload id, and everything else becomes a string |
| ApplicationForm.CleanValue | main_lambda.py:1052-1059 | exactly the uploads become dictionaries, their upload record; dates become their ISO text, text stays as it is, None becomes "", and every other value becomes a string |
| ApplicationForm.CleanReadsBack | main_lambda.py:1050-1059 | text and dates are kept verbatim, None becomes "", and numbers are written so that `int` reads them back |
| ApplicationForm.SubmissionData | main_lambda.py:1062-1075 | the batch form sends the selection with the form data; the single form sends jobId, jobTitle and company with their defaults |
| ApplicationForm.Celebrate | main_lambda.py:1043-1047 | submitting turns confetti on and clears the job selection; those two keys are added if missing, and every other key keeps its value |
| ApplicationForm.SubmitApplication | main_lambda.py:1021-1075 | submission is refused exactly when a field is unsatisfied, and then the messages are the validation messages in form order; otherwise confetti is on, the selection is cleared, other keys are unchanged, and FORM_SUBMISSION is sent with the cleaned data |
| ApplicationForm.SubmissionClearsApply | main_lambda.py:1046-1047 | after a submission, no job list offers the batch apply button |
| ProfileForm.Filter | main_lambda.py:1099-1104 | a section's group holds exactly the fields of that section, in their original order |
| ProfileForm.FilterAppend | main_lambda.py:1099-1104 | the fields of a section in two runs of fields are those of each run, one after the other: appending keeps the original order |
| ProfileForm.Sections | main_lambda.py:1099-1104 | each section appears once, and a name is listed exactly when some field belongs to it |
| ProfileForm.SectionsInFirstAppearanceOrder | main_lambda.py:1099-1104 | of two listed sections, the one whose first field comes earlier is listed earlier, as the dictionary's insertion order has it |
| ProfileForm.JoinGroup | main_lambda.py:1100-1103 | a field of a section already grouped joins the end of that group, and the groups still hold each section's fields so far |
| ProfileForm.NewGroup | main_lambda.py:1100-1103 | a field of a new section opens a group of its own at the end, and the groups still hold each section's fields so far |
| ProfileForm.GroupBySectionByFilter | main_lambda.py:1099-1104 | the grouping loop (`GroupBySection`) yields one group per section, in order of first appearance, each holding exactly that section's fields in their original order |
| ProfileForm.RenderOrderBySection | main_lambda.py:1098-1117 | rendering goes section by section, in order of first appearance, each section's fields in their original order |
| ProfileForm.FlattenPermutes | main_lambda.py:1107-1117 | rendering the groups of distinct sections covering the fields renders each field exactly once |
| ProfileForm.RenderOrderPermutes | main_lambda.py:1099-1117 | the rendering order is a permutation of the fields |
| ProfileForm.OriginalStr | main_lambda.py:1223 | None normalises to "", a string to its stripped form, an integer to its decimal text and a boolean to "True" or "False"; lists and dictionaries are not modelled |
| ProfileForm.NewStr | main_lambda.py:1224 | text normalises to its stripped form and a number to its decimal text; the result is empty exactly for whitespace-only text |
| ProfileForm.ProfileDiff | main_lambda.py:1218-1232 | a key is sent exactly when its normalised value changed, and it carries the trimmed new value |
| ProfileForm.DiffValuesTrimmed | main_lambda.py:1226-1232 | a sent value never has surrounding whitespace, and is empty only for a field that had a value and was cleared |
| ProfileForm.ProfileErrors | main_lambda.py:1201-1210 | there are no errors exactly when no required field is blank, and every error asks for the field to be filled in |
| ProfileForm.ProfileErrorsSingle | main_lambda.py:1203-1210 | one field asks to be filled in exactly when it is required and its value is blank |
| ProfileForm.ProfileErrorsAppend | main_lambda.py:1202-1210 | the messages of two runs of fields are those of each run, one after the other, so the messages follow form order |
| ProfileForm.SubmitProfile | main_lambda.py:1199-1244 | submission is refused exactly when a required field is blank, and then the messages are those of the blank required fields in form order; "no changes" exactly when nothing changed; otherwise PROFILE_FORM_SUBMISSION carries exactly the changed fields |
| ProfileForm.UntouchedProfileUnchanged | main_lambda.py:1128-1232 | a form whose widgets still show their pre-filled values detects no change |
| ProfileForm.UntouchedFormSendsNothing | main_lambda.py:1234-1244 | an unedited profile form whose number fields all had an integer pre-filled is never sent |
| ProfileForm.UnfilledNumberIsSent | main_lambda.py:1169-1232 | an optional number field without a pre-filled value, left at its default minimum 0, reads as changed from "" to "0" and is sent |
| Text.Strip | main_lambda.py:1223 | `str.strip`: the input with whitespace-only runs cut from both ends, empty exactly for whitespace-only text, and otherwise starting and ending with a non-space |
| Text.StripIdempotent | main_lambda.py:1223-1224 | stripping twice is stripping once |
| Text.IntToStringRoundTrip | main_lambda.py:1059 | reading the decimal text of any integer gives that integer back |
| Text.IntTextStripped | main_lambda.py:1223-1224 | the decimal text of an integer has no surrounding whitespace, so stripping leaves it as it is |
| Dispatch.ComponentOf | main_lambda.py:1411-1444 | the six known names select their renderers; every other name selects the fallback, which shows that name |
| Dispatch.DispatchRoundTrip | main_lambda.py:1417-1444 | the name is recovered from the renderer it selects, so no two names share one |
| Dispatch.RenderEntry | main_lambda.py:1604-1612 | displaying an entry crashes exactly when validation fails or the type names another payload than it carries; otherwise it shows text content, dispatches the component, or shows nothing for an action |
| Dispatch.UserMessagesDisplay | main_lambda.py:1604-1612 | every user message the client logs displays without crashing: a prompt as its text, an action as nothing |
| Dispatch.MismatchedEntryCrashes | main_lambda.py:1607-1610 | a backend entry typed 'text' with an action payload validates, yet stops the history display |
| Dispatch.RenderJobList | main_lambda.py:1417-1423 | uses the defaults: jobs [], totalMatches as the length of the jobs (always evaluated, so an unsized value crashes), and criteria {}; an empty list shows the warning (653-659); a non-empty list of dictionaries, with criteria that are falsy or a dictionary, shows cards under the message, or the default header when the message is falsy (662), with the search line of the criteria (665-668); a job with a truthy id and truthy `matchReasons` that are not a list, string or dictionary stops the script (802-806) |
| Dispatch.SearchLine | main_lambda.py:665-668 | falsy criteria give no search line; dictionary criteria give their query and location, "N/A" when missing; other truthy criteria have no `get` and crash |
| Dispatch.JobListCrashes | main_lambda.py:651-668 | the job list stops the script exactly when the jobs have no length, when truthy criteria are not a dictionary, when a non-empty job list is not a list of dictionaries, or when a job with a truthy id has truthy match reasons that cannot be iterated (802-806) |
| Dispatch.RetryOf | main_lambda.py:1367-1408 | a retry button exists exactly when isRetryable and retryAction are both truthy; it then stops the script exactly when retryAction is not a dictionary, and otherwise carries the label (default "Try Again") and the action type (default RETRY), whatever its value |
| Dispatch.RetryPress | main_lambda.py:1409 | pressing the button sends the action type with empty data exactly when the type is a string; any other type fails message validation before anything is logged (1470-1475) |
| Dispatch.RetryShownForAnyType | main_lambda.py:1396-1409 | an action of any type shows the button under its label, and pressing it sends the action exactly when the type is a string |
| Dispatch.RetryDefaultsToRetry | main_lambda.py:1397-1409 | a retry action without a type shows its own label and, when pressed, retries with RETRY |
| Dispatch.NextActionInput | main_lambda.py:1270-1285 | an enabled button (the default) sends a prompt exactly for SEARCH_JOBS ("find me jobs") and UPDATE_PROFILE_AGAIN ("update my profile") |
| Dispatch.RecommendedActions | main_lambda.py:1650-1720 | three quick actions: show the profile (secondary), update the profile (primary), and a primary search, worded "find me more jobs" once the session has a job list |
| Dispatch.JobListChangesSearchPrompt | main_lambda.py:1671-1684 | a new session offers "find me jobs"; after the backend sets `has_job_list`, the offer is "find me more jobs" |
| Dispatch.ConsumeConfetti | main_lambda.py:1744-1752 | confetti shows exactly when `show_confetti` is truthy, and the flag is then false, with nothing else changed |
| Dispatch.ConfettiOnce | main_lambda.py:1043-1044 | a submitted application rains confetti on the next render, and only on that one |
| Dispatch.MainScreen | main_lambda.py:1764-1778 | after initialisation, the chat is shown exactly when `profile_id_submitted` is truthy |
| Dispatch.StartAgentOpensChat | main_lambda.py:1633-1636 | a new session asks for the profile id; after "Start Agent" with a non-empty id, every later run shows the chat |

## Left out

- Rendering: HTML, CSS, markdown and all display text, such as headers, card contents, match scores, reasons, the combined title and company text, and section titles. These produce no state and send no message; the one crash among them, match reasons that cannot be iterated, is part of `Dispatch.RenderJobList`.
- `html.escape` on non-string properties. The error display, the forms and the success screens raise a TypeError for these; such inputs are outside the model.
- The application-success screen. Its buttons only show "coming soon" notices.
- The toggle that hides the quick actions after three user messages. It changes only what is displayed.
- I/O: the HTTP request, the debug `print` output, `st.rerun`, spinners and the confetti animation. The transport outcome and the JSON decoder are parameters of `Api.CallAiResponseApi`.
- Clocks and randomness. UUIDs and timestamps are opaque string parameters. The `isoformat` conversion of the timestamp in the request is the identity on them.
- Configuration, `llm.py` and `chat.py`: the API key is a parameter; the rest is not part of this model.
- Widget internals: minimum and maximum values, steps, `maxLength` and `minDate`. Widget values are inputs, so a number field without a pre-filled value is stated only at its default minimum 0 (`ProfileForm.UnfilledNumberIsSent`).
- Floating point: `Value` has no float and number inputs return integers. Float pre-fills, minimums and steps, and the blank check on `0.0`, are not modelled.
- Python equality across types, such as `1 == True`. Selection membership compares values structurally.
- Session.RunTurn: a log holding a non-dictionary entry is treated as stopping the turn before anything changes. The source stops only when one of its scans reaches that entry.
- Schema.ModelValidate: a timestamp is accepted as any string. Pydantic's datetime parsing of ISO text and epoch numbers, and its rejection of other text, are not modelled. The crash condition of `Dispatch.RenderEntry` is relative to this validation.
- ProfileForm.OriginalStr: `str()` of a list or dictionary pre-fill is not modelled (the result is `None`).
- ApplicationForm.Fits: file extensions are compared case-sensitively. The uploader's own matching may ignore case.
- ApplicationForm.KiloBytes: assumes `size / 1024` is exact in binary floating point, which holds for every file size the uploader can report.
- Schema.ParsePayload: assumes pydantic 2's smart-mode union, as the `model_dump`/`model_validate` calls suggest; the installed pydantic version is not part of this model.
- Field records are assumed to have string ids, texts, types, options, sections and accepted types, and the profile form's `sections` property a dictionary (main_lambda.py:1091, 1108), the types the renderers rely on.
- Dispatch.NextActionInput: models one action given as a dictionary. The crashes of the surrounding loop over `nextActions` are not modelled: `len` of a truthy value with no length (main_lambda.py:1272), `.get` on an entry that is not a dictionary, including the keys or characters of a truthy dictionary or string (1275), and two enabled actions with the same `actionType`, whose buttons share a widget key (1277).
- Forms.FormData: two fields with the same id and type get the same widget key (main_lambda.py:878, 1126), which makes Streamlit stop the script. The model lets the later field win instead.
- Session.ApplyUpdatedState: `hasattr` on the session state is also true for its method names, such as `keys`, `get` and `items`, so an update under such a name would be applied too. The model updates only stored keys.

## Findings

| source | as written | input that shows it | evidently intended | confidence | as-written member | corrected member |
|---|---|---|---|---|---|---|
| main_lambda.py:969-989 | the uploader's type list keeps only known MIME types and entries containing '/'. Bare extensions are dropped, and that includes the default `['pdf', 'doc', 'docx']` | a `file` field without `acceptedTypes`: the uploader receives an empty type list | the default formats pdf, doc and docx reach the uploader | not executed; follows from the code's two branches | ApplicationForm.DefaultTypesDropped | ApplicationForm.DefaultTypesKept |

=== FILE: api.dfy ===
/**
 * `call_ai_response_api` (main_lambda.py): the request it sends and how it
 * turns whatever comes back into the result the caller reconciles. The
 * HTTP exchange itself is an input: the `Transport` value says what the
 * POST produced, and `parse` stands for `json.loads` on the `body` text.
 */
module Api {
  import opened Json
  import opened Wrappers
  import opened Text

  /** The distinct user-visible error the call shows, one per failure path. */
  datatype ApiNotice =
    | MissingApiKey      // the key is empty: nothing is sent
    | AuthFailed         // HTTP 403
    | TimedOut           // requests' Timeout
    | NetworkError       // any other RequestException, including an error status and an undecodable reply
    | BodyParseError     // json.loads of the `body` text failed
    | UnexpectedError    // any other exception, such as indexing a non-dictionary reply

  /** What the POST produced. */
  datatype Transport =
    | Timeout
    | ConnectionFailed
    | Replied(status: int, json: Option<Value>)  // `json` is None when `response.json()` cannot decode the reply

  datatype ApiResult = ApiResult(result: Value, notice: Option<ApiNotice>)

  /** `{"ai_responses": [], "updated_state": {}}`, what every failure returns. */
  const EmptyEnvelope: Value := Obj(map["ai_responses" := List([]), "updated_state" := EmptyObj])

  /** The JSON body posted to the backend: only the profile id and the message. */
  function RequestBody(profileId: Value, message: Dict): (body: Value)
    ensures body.Obj? && body.fields.Keys == {"interact_profile_id", "current_user_message"}
    ensures body.fields["interact_profile_id"] == profileId
    ensures body.fields["current_user_message"] == Obj(message)
  {
    Obj(map["interact_profile_id" := profileId, "current_user_message" := Obj(message)])
  }

  function Fail(notice: ApiNotice): ApiResult {
    ApiResult(EmptyEnvelope, Some(notice))
  }

  /**
   * The `if 'body' in result` step on a decoded reply. `in` is a key test on
   * a dictionary, a substring test on a string and a membership test on a
   * list; indexing a string or list with `'body'`, and `in` on any other
   * value, raise TypeError, which the catch-all handler turns into the empty
   * envelope.
   */
  function Unwrap(reply: Value, parse: string -> Option<Value>): (r: ApiResult)
    ensures r.notice.Some? ==> r.result == EmptyEnvelope
    ensures reply.Obj? && "body" !in reply.fields ==> r == ApiResult(reply, None)
    ensures reply.Obj? && "body" in reply.fields && reply.fields["body"].Str? ==>
      match parse(reply.fields["body"].s)
      case Some(v) => r == ApiResult(v, None)
      case None => r == Fail(BodyParseError)
    ensures reply.Obj? && "body" in reply.fields && !reply.fields["body"].Str? ==> r == Fail(UnexpectedError)
    ensures reply.List? ==> r == (if Str("body") in reply.items then Fail(UnexpectedError) else ApiResult(reply, None))
    ensures reply.Str? ==> r == (if HasSubstring(reply.s, "body") then Fail(UnexpectedError) else ApiResult(reply, None))
    ensures reply.Null? || reply.Bool? || reply.Int? ==> r == Fail(UnexpectedError)
  {
    match reply
    case Obj(fields) =>
      if "body" !in fields then ApiResult(reply, None)
      else if !fields["body"].Str? then Fail(UnexpectedError)
      else (match parse(fields["body"].s)
            case Some(v) => ApiResult(v, None)
            case None => Fail(BodyParseError))
    case List(items) =>
      if Str("body") in items then Fail(UnexpectedError) else ApiResult(reply, None)
    case Str(s) =>
      if HasSubstring(s, "body") then Fail(UnexpectedError) else ApiResult(reply, None)
    case _ => Fail(UnexpectedError)
  }

  /** The reply passed `raise_for_status` and the 403 check. */
  predicate SuccessStatus(status: int) {
    status != 403 && !(400 <= status < 600)
  }

  /** `call_ai_response_api` with the key, the transport outcome and the body decoder as inputs. */
  function CallAiResponseApi(apiKey: string, transport: Transport, parse: string -> Option<Value>): (r: ApiResult)
    ensures r.notice.Some? ==> r.result == EmptyEnvelope
    ensures apiKey == "" ==> r == Fail(MissingApiKey)
    ensures apiKey != "" && transport.Timeout? ==> r == Fail(TimedOut)
    ensures apiKey != "" && transport.ConnectionFailed? ==> r == Fail(NetworkError)
    ensures apiKey != "" && transport.Replied? && transport.status == 403 ==> r == Fail(AuthFailed)
    ensures apiKey != "" && transport.Replied? && transport.status != 403 && 400 <= transport.status < 600 ==>
      r == Fail(NetworkError)
    ensures apiKey != "" && transport.Replied? && SuccessStatus(transport.status) && transport.json.None? ==>
      r == Fail(NetworkError)
    ensures apiKey != "" && transport.Replied? && SuccessStatus(transport.status) && transport.json.Some? ==>
      r == Unwrap(transport.json.value, parse)
  {
    if apiKey == "" then Fail(MissingApiKey)
    else match transport
      case Timeout => Fail(TimedOut)
      case ConnectionFailed => Fail(NetworkError)
      case Replied(status, json) =>
        if status == 403 then Fail(AuthFailed)
        else if 400 <= status < 600 then Fail(NetworkError)
        else if json.None? then Fail(NetworkError)
        else Unwrap(json.value, parse)
  }

  /** A successful reply without a `body` key is the result itself. */
  lemma DirectReplyPassesThrough(apiKey: string, status: int, fields: Dict, parse: string -> Option<Value>)
    requires apiKey != "" && SuccessStatus(status) && "body" !in fields
    ensures CallAiResponseApi(apiKey, Replied(status, Some(Obj(fields))), parse) == ApiResult(Obj(fields), None)
  {
  }

  /**
   * A gateway reply that wraps the payload as JSON text under `body` yields
   * the payload itself, provided `parse` decodes what was encoded.
   */
  lemma UnwrapsEncodedBody(apiKey: string, status: int, payload: Value, text: string,
                           parse: string -> Option<Value>)
    requires apiKey != "" && SuccessStatus(status)
    requires parse(text) == Some(payload)
    ensures CallAiResponseApi(apiKey, Replied(status, Some(Obj(map["body" := Str(text)]))), parse)
            == ApiResult(payload, None)
  {
  }
}

=== FILE: application.dfy ===
/**
 * `render_application_form` (main_lambda.py): the widget each field gets
 * and its preselection, the formats offered by a file field, the
 * validation run on submit, the cleaning of `form_data`, and the
 * `FORM_SUBMISSION` action with the session changes that precede it.
 */
module ApplicationForm {
  import opened Json
  import opened Wrappers
  import opened Text
  import opened Seqs
  import opened Schema
  import opened Forms
  import opened Session
  import opened Jobs

  datatype Widget =
    | YesNoRadio | SelectBox | DatePicker | TextArea | EmailInput
    | TelInput | NumberInput | FileUploader | TextBox

  /** The `if field_type == ... elif ...` chain; unknown types get a text box. */
  function WidgetOf(kind: string): Widget {
    if kind == "yesno" then YesNoRadio
    else if kind == "select" then SelectBox
    else if kind == "date" then DatePicker
    else if kind == "textarea" then TextArea
    else if kind == "email" then EmailInput
    else if kind == "tel" then TelInput
    else if kind == "number" then NumberInput
    else if kind == "file" then FileUploader
    else TextBox
  }

  /**
   * The preselected choice of the Yes/No radio: "No" only for a pre-filled
   * value of exactly "no"; anything else, "No" included, preselects "Yes".
   */
  function YesNoDefaultIndex(value: Value): (i: nat)
    ensures i < 2
    ensures ["Yes", "No"][i] == "No" <==> value == Str("no")
  {
    if value == Str("yes") then 0 else if value == Str("no") then 1 else 0
  }

  /**
   * The preselected option of a select box: the first occurrence of a
   * truthy pre-filled value that is among the options, otherwise the first.
   */
  function SelectDefaultIndex(value: Value, options: seq<string>): (i: nat)
    ensures options != [] ==> i < |options|
    ensures value.Str? && value.s != "" && value.s in options ==> options[i] == value.s && value.s !in options[..i]
    ensures !(value.Str? && value.s != "" && value.s in options) ==> i == 0
  {
    if value.Str? && value.s != "" && value.s in options then IndexOf(options, value.s) else 0
  }

  /** The MIME types the uploader translates, and the extension each stands for. */
  const MimeExtensions: map<string, string> := map[
    "application/pdf" := "pdf",
    "application/msword" := "doc",
    "application/vnd.openxmlformats-officedocument.wordprocessingml.document" := "docx",
    "text/plain" := "txt",
    "image/jpeg" := "jpg",
    "image/png" := "png"]

  /** `acceptedTypes` when the field has none. */
  const DefaultAcceptedTypes: seq<string> := ["pdf", "doc", "docx"]

  /** An accepted type the source can turn into an extension: a known MIME type or one containing '/'. */
  predicate Convertible(t: string) {
    t in MimeExtensions || '/' in t
  }

  /** What the source makes of one accepted type: a known MIME type, the part after the last '/', or nothing. */
  function ExtensionsAsWritten(t: string): (r: seq<string>)
    ensures |r| <= 1
    ensures r == [] <==> !Convertible(t)
    ensures r != [] ==> r == [Extension(t)]
  {
    if t in MimeExtensions then [MimeExtensions[t]]
    else if '/' in t then
      var ext := LastSegment(t, '/');
      [ext]
    else []
  }

  /**
   * The uploader's `type` list as the source computes it: every entry that
   * is neither a known MIME type nor contains '/' is dropped, bare
   * extensions included.
   */
  function UploaderTypesAsWritten(accepted: seq<string>): (r: seq<string>)
    ensures |r| <= |accepted|
    ensures r == [] <==> forall k :: 0 <= k < |accepted| ==> accepted[k] !in MimeExtensions && '/' !in accepted[k]
  {
    if accepted == [] then []
    else
      assert forall k :: 1 <= k < |accepted| ==> accepted[k] == accepted[1..][k - 1];
      ExtensionsAsWritten(accepted[0]) + UploaderTypesAsWritten(accepted[1..])
  }

  /** The accepted types the source keeps, in their order: the convertible ones. */
  function KeptTypes(accepted: seq<string>): (r: seq<string>)
    ensures |r| <= |accepted|
    ensures forall t :: t in r <==> t in accepted && Convertible(t)
  {
    if accepted == [] then []
    else (if Convertible(accepted[0]) then [accepted[0]] else []) + KeptTypes(accepted[1..])
  }

  /**
   * The list as written is the corrected list of the convertible types
   * alone: dropping an entry is the only difference.
   */
  lemma {:induction false} AsWrittenKeepsConvertible(accepted: seq<string>)
    ensures UploaderTypesAsWritten(accepted) == UploaderTypes(KeptTypes(accepted))
  {
    if accepted != [] {
      var rest := accepted[1..];
      AsWrittenKeepsConvertible(rest);
      if Convertible(accepted[0]) {
        var kept := [accepted[0]] + KeptTypes(rest);
        assert KeptTypes(accepted) == kept;
        assert kept[1..] == KeptTypes(rest);
        assert UploaderTypes(kept) == [Extension(accepted[0])] + UploaderTypes(KeptTypes(rest));
      } else {
        assert KeptTypes(accepted) == [] + KeptTypes(rest) == KeptTypes(rest);
        assert ExtensionsAsWritten(accepted[0]) == [];
      }
    }
  }

  /** The default formats of a file field all vanish from the uploader's list. */
  lemma DefaultTypesDropped()
    ensures UploaderTypesAsWritten(DefaultAcceptedTypes) == []
  {
    assert forall k :: 0 <= k < 3 ==> '/' !in DefaultAcceptedTypes[k] && DefaultAcceptedTypes[k] !in MimeExtensions;
  }

  /** One accepted type as the uploader's `type` list evidently means it: a bare extension is kept. */
  function Extension(t: string): (ext: string)
    ensures t in MimeExtensions ==> ext == MimeExtensions[t]
    ensures t !in MimeExtensions && '/' in t ==> ext == LastSegment(t, '/')
    ensures t !in MimeExtensions && '/' !in t ==> ext == t
    ensures '/' !in ext
  {
    if t in MimeExtensions then
      assert forall m :: m in MimeExtensions ==> '/' !in MimeExtensions[m];
      MimeExtensions[t]
    else if '/' in t then LastSegment(t, '/')
    else t
  }

  /** The uploader's `type` list with bare extensions kept: one extension per accepted type. */
  function UploaderTypes(accepted: seq<string>): (r: seq<string>)
    ensures |r| == |accepted|
    ensures forall k :: 0 <= k < |accepted| ==> r[k] == Extension(accepted[k])
  {
    if accepted == [] then []
    else
      assert forall k :: 1 <= k < |accepted| ==> accepted[k] == accepted[1..][k - 1];
      [Extension(accepted[0])] + UploaderTypes(accepted[1..])
  }

  /** Bare extensions pass through unchanged, so the defaults survive. */
  lemma DefaultTypesKept()
    ensures UploaderTypes(DefaultAcceptedTypes) == DefaultAcceptedTypes
  {
    assert forall k :: 0 <= k < 3 ==> '/' !in DefaultAcceptedTypes[k] && DefaultAcceptedTypes[k] !in MimeExtensions;
  }

  /** When every accepted type is a MIME type, the two readings agree. */
  lemma {:induction false} TypesAgreeOnMimeTypes(accepted: seq<string>)
    requires forall k :: 0 <= k < |accepted| ==> '/' in accepted[k]
    ensures UploaderTypesAsWritten(accepted) == UploaderTypes(accepted)
  {
    if accepted != [] {
      var rest := accepted[1..];
      assert forall k :: 0 <= k < |rest| ==> rest[k] == accepted[k + 1];
      TypesAgreeOnMimeTypes(rest);
      assert ExtensionsAsWritten(accepted[0]) == [Extension(accepted[0])];
    }
  }

  /**
   * The formats a file field's uploader is meant to offer: the corrected
   * list of `UploaderTypes`, with the default formats when the field names
   * none. The list as written is `UploaderTypesAsWritten`.
   */
  function IntendedFileTypes(f: FormField): (types: seq<string>)
    ensures f.acceptedTypes.None? ==> types == DefaultAcceptedTypes
    ensures f.acceptedTypes.Some? ==>
      && |types| == |f.acceptedTypes.value|
      && forall k :: 0 <= k < |types| ==> types[k] == Extension(f.acceptedTypes.value[k])
  {
    if f.acceptedTypes.None? then DefaultTypesKept(); UploaderTypes(DefaultAcceptedTypes)
    else UploaderTypes(f.acceptedTypes.value)
  }

  /**
   * The widget could have returned `v`: a radio one of its two labels, a
   * select box one of its options (or `None` without options), a date
   * picker a date, a number input a number, the text widgets text. For the
   * uploader this is the corrected uploader: `None` or a file with one of
   * its `IntendedFileTypes` (any file when there are none). The uploader
   * as written is `UploadAcceptedAsWritten`.
   */
  predicate Fits(f: FormField, v: FieldValue) {
    match WidgetOf(f.kind)
    case YesNoRadio => v == Text("Yes") || v == Text("No")
    case SelectBox => if f.options == [] then v == Nothing else v.Text? && v.s in f.options
    case DatePicker => v.Date?
    case NumberInput => v.Number?
    case FileUploader => v == Nothing || (v.File? && (IntendedFileTypes(f) == [] || LastSegment(v.file.name, '.') in IntendedFileTypes(f)))
    case _ => v.Text?
  }

  /**
   * With the corrected type list, a file field (one shown with an uploader)
   * without `acceptedTypes` takes exactly the files named with a default
   * extension. As written it takes any file (`DefaultUploaderTakesAnyFile`).
   */
  lemma DefaultFormatsFit(f: FormField, file: UploadedFile)
    requires WidgetOf(f.kind) == FileUploader && f.acceptedTypes.None?
    ensures Fits(f, File(file)) <==> LastSegment(file.name, '.') in DefaultAcceptedTypes
  {
    var types := IntendedFileTypes(f);
    assert types == DefaultAcceptedTypes && |types| == 3;
    UploaderFits(f, File(file), types);
  }

  /**
   * The uploader as written takes `file`: its type list is the one
   * `UploaderTypesAsWritten` makes of the accepted types (pdf, doc and docx
   * by default), and an empty list restricts nothing.
   */
  predicate UploadAcceptedAsWritten(f: FormField, file: UploadedFile) {
    var types := UploaderTypesAsWritten(if f.acceptedTypes.Some? then f.acceptedTypes.value else DefaultAcceptedTypes);
    types == [] || LastSegment(file.name, '.') in types
  }

  /** As written, a file field without `acceptedTypes` takes any file at all. */
  lemma DefaultUploaderTakesAnyFile(f: FormField, file: UploadedFile)
    requires f.acceptedTypes.None?
    ensures UploadAcceptedAsWritten(f, file)
  {
    DefaultTypesDropped();
  }

  /** When every accepted type contains '/', the uploader as written and the corrected one take the same files. */
  lemma AsWrittenAgreesOnMimeTypes(f: FormField, file: UploadedFile)
    requires WidgetOf(f.kind) == FileUploader && f.acceptedTypes.Some?
    requires forall k :: 0 <= k < |f.acceptedTypes.value| ==> '/' in f.acceptedTypes.value[k]
    ensures UploadAcceptedAsWritten(f, file) <==> Fits(f, File(file))
  {
    TypesAgreeOnMimeTypes(f.acceptedTypes.value);
    UploaderFits(f, File(file), IntendedFileTypes(f));
  }

  /** What an uploader accepts, for a field whose intended formats are `types`. */
  lemma UploaderFits(f: FormField, v: FieldValue, types: seq<string>)
    requires WidgetOf(f.kind) == FileUploader && types == IntendedFileTypes(f)
    ensures Fits(f, v) <==> v == Nothing || (v.File? && (types == [] || LastSegment(v.file.name, '.') in types))
  {
  }

  /**
   * `f"{size / 1024:.0f}"`: the size in kilobytes rounded to the nearest
   * whole number, a tie going to the even neighbour. The quotient by 1024
   * is exact in binary floating point, so no other rounding occurs.
   */
  function KiloBytes(size: nat): (kb: nat)
    ensures -512 <= size - 1024 * kb <= 512
    ensures size - 1024 * kb == 512 || size - 1024 * kb == -512 ==> kb % 2 == 0
  {
    var q := size / 1024;
    var rem := size % 1024;
    if rem > 512 || (rem == 512 && q % 2 == 1) then q + 1 else q
  }

  /** The dictionary `form_data` holds for an uploaded file. */
  function UploadRecord(fieldId: string, sessionId: string, file: UploadedFile): (rec: Dict)
    ensures rec.Keys == {"fileName", "fileSize", "fileType", "uploadId"}
    ensures rec["fileName"] == Str(file.name) && rec["fileType"] == Str(file.mime)
    ensures rec["uploadId"] == Str("upload_" + fieldId + "_" + sessionId)
    ensures rec["fileSize"] == Str(NatToString(KiloBytes(file.size)) + "KB")
  {
    map["fileName" := Str(file.name),
        "fileSize" := Str(NatToString(KiloBytes(file.size)) + "KB"),
        "fileType" := Str(file.mime),
        "uploadId" := Str("upload_" + fieldId + "_" + sessionId)]
  }

  /** A required file field needs a file; any other required field a value that is not blank. */
  predicate Satisfied(f: FormField, v: FieldValue) {
    !f.required || (if f.kind == "file" then v != Nothing else !Blank(v))
  }

  /**
   * A required field is satisfied by an upload when it is a file field, and
   * otherwise by anything but `None`, zero and whitespace-only text.
   */
  lemma SatisfiedCases(f: FormField, v: FieldValue)
    ensures Satisfied(f, v) <==>
      || !f.required
      || (f.kind == "file" && v != Nothing)
      || (f.kind != "file" && v != Nothing && v != Number(0) && !(v.Text? && Strip(v.s) == ""))
  {
    BlankCases(v);
  }

  function FieldError(f: FormField, v: FieldValue): (e: Option<FormError>)
    ensures e.None? <==> Satisfied(f, v)
    ensures e.Some? ==> e.value == (if f.kind == "file" then PleaseUpload(f.text) else PleaseFillIn(f.text))
  {
    if !f.required then None
    else if f.kind == "file" then (if v == Nothing then Some(PleaseUpload(f.text)) else None)
    else if Blank(v) then Some(PleaseFillIn(f.text))
    else None
  }

  /** The validation loop over the fields, reading each one's value back from `form_data`. */
  function ValidationErrors(fields: seq<FormField>, fd: map<string, FieldValue>): (errs: seq<FormError>)
    requires forall k :: 0 <= k < |fields| ==> fields[k].id in fd
    ensures |errs| <= |fields|
    ensures forall e :: e in errs ==> e.PleaseFillIn? || e.PleaseUpload?
  {
    if fields == [] then []
    else
      assert forall k :: 0 <= k < |fields[1..]| ==> fields[1..][k] == fields[k + 1];
      var e := FieldError(fields[0], fd[fields[0].id]);
      (if e.Some? then [e.value] else []) + ValidationErrors(fields[1..], fd)
  }

  /** No message at all exactly when every field's value passes its check. */
  lemma {:induction false} ValidationErrorsEmpty(fields: seq<FormField>, fd: map<string, FieldValue>)
    requires forall k :: 0 <= k < |fields| ==> fields[k].id in fd
    ensures ValidationErrors(fields, fd) == [] <==> forall k :: 0 <= k < |fields| ==> Satisfied(fields[k], fd[fields[k].id])
  {
    if fields != [] {
      var rest := fields[1..];
      assert forall k :: 0 <= k < |rest| ==> rest[k] == fields[k + 1];
      ValidationErrorsEmpty(rest, fd);
    }
  }

  /** One field contributes its own message when its value fails the check, and nothing otherwise. */
  lemma ValidationErrorsSingle(f: FormField, fd: map<string, FieldValue>)
    requires f.id in fd
    ensures ValidationErrors([f], fd) == (if Satisfied(f, fd[f.id]) then [] else [FieldError(f, fd[f.id]).value])
  {
    assert [f][1..] == [];
  }

  /** The messages of two runs of fields are those of each run, one after the other: form order is kept. */
  lemma {:induction false} ValidationErrorsAppend(a: seq<FormField>, b: seq<FormField>, fd: map<string, FieldValue>)
    requires forall k :: 0 <= k < |a| ==> a[k].id in fd
    requires forall k :: 0 <= k < |b| ==> b[k].id in fd
    ensures forall k :: 0 <= k < |a + b| ==> (a + b)[k].id in fd
    ensures ValidationErrors(a + b, fd) == ValidationErrors(a, fd) + ValidationErrors(b, fd)
  {
    if a == [] {
      assert a + b == b;
    } else {
      assert (a + b)[0] == a[0] && (a + b)[1..] == a[1..] + b;
      ValidationErrorsAppend(a[1..], b, fd);
      var e := FieldError(a[0], fd[a[0].id]);
      var head := if e.Some? then [e.value] else [];
      var y, z := ValidationErrors(a[1..], fd), ValidationErrors(b, fd);
      assert ValidationErrors(a + b, fd) == head + (y + z);
      assert ValidationErrors(a, fd) == head + y;
      assert head + (y + z) == (head + y) + z;
    }
  }

  /** With a value its widget could return, a required radio, date picker or filled select box never fails. */
  lemma ChoicesAlwaysSatisfy(f: FormField, v: FieldValue)
    requires Fits(f, v)
    requires WidgetOf(f.kind) in {YesNoRadio, DatePicker}
      || (WidgetOf(f.kind) == SelectBox && f.options != [] && forall k :: 0 <= k < |f.options| ==> !AllSpace(f.options[k]))
    ensures Satisfied(f, v)
  {
    match WidgetOf(f.kind)
    case YesNoRadio =>
      assert v.s[0] == 'Y' || v.s[0] == 'N';
    case SelectBox =>
      var k :| 0 <= k < |f.options| && f.options[k] == v.s;
    case _ =>
  }

  /** A required number field left at zero is reported as not filled in. */
  lemma ZeroIsMissing(f: FormField)
    requires f.required && f.kind == "number"
    ensures FieldError(f, Number(0)) == Some(PleaseFillIn(f.text))
  {
  }

  /** `clean_form_data`: dates by their ISO form, uploads as their record, `None` as "", the rest by `str`. */
  function CleanValue(key: string, v: FieldValue, sessionId: string): (r: Value)
    ensures r.Obj? <==> v.File?
    ensures !v.File? ==> r.Str?
    ensures v.File? ==> r == Obj(UploadRecord(key, sessionId, v.file))
    ensures v.Date? ==> r == Str(v.iso)
    ensures v.Text? ==> r == Str(v.s)
    ensures v == Nothing ==> r == Str("")
  {
    match v
    case Date(iso) => Str(iso)
    case File(file) => Obj(UploadRecord(key, sessionId, file))
    case Nothing => Str("")
    case Text(s) => Str(s)
    case Number(n) => Str(IntToString(n))
  }

  function Clean(fd: map<string, FieldValue>, sessionId: string): (cleaned: Dict)
    ensures cleaned.Keys == fd.Keys
    ensures forall key :: key in fd ==> (cleaned[key].Str? <==> !fd[key].File?)
    ensures forall key :: key in fd && fd[key].File? ==> cleaned[key].Obj? && "uploadId" in cleaned[key].fields
  {
    map key | key in fd :: CleanValue(key, fd[key], sessionId)
  }

  /** Cleaning keeps what was entered: text and dates verbatim, numbers so that `int` reads them back. */
  lemma CleanReadsBack(fd: map<string, FieldValue>, sessionId: string, key: string)
    requires key in fd
    ensures var c := Clean(fd, sessionId)[key];
      && (fd[key].Text? ==> c == Str(fd[key].s))
      && (fd[key].Date? ==> c == Str(fd[key].iso))
      && (fd[key].Number? ==> c.Str? && ParseInt(c.s) == fd[key].n)
      && (fd[key] == Nothing ==> c == Str(""))
  {
    if fd[key].Number? {
      IntToStringRoundTrip(fd[key].n);
    }
  }

  /**
   * The `FORM_SUBMISSION` data: the batch form (truthy `selectedJobs`)
   * sends the selection back with the form data; the single-job form sends
   * `jobId`, `jobTitle` and `company`, with "Unknown Position" and
   * "Unknown Company" for missing ones.
   */
  function SubmissionData(props: Dict, cleaned: Dict): (data: Dict)
    ensures "formData" in data && data["formData"] == Obj(cleaned)
    ensures Truthy(Get(props, "selectedJobs", List([]))) ==>
      data.Keys == {"selectedJobs", "formData"} && data["selectedJobs"] == props["selectedJobs"]
    ensures !Truthy(Get(props, "selectedJobs", List([]))) ==>
      && data.Keys == {"jobId", "jobTitle", "company", "formData"}
      && data["jobId"] == Get(props, "jobId", Null)
      && data["jobTitle"] == Get(props, "jobTitle", Str("Unknown Position"))
      && data["company"] == Get(props, "company", Str("Unknown Company"))
  {
    var selected := Get(props, "selectedJobs", List([]));
    if Truthy(selected) then
      map["selectedJobs" := selected, "formData" := Obj(cleaned)]
    else
      map["jobId" := Get(props, "jobId", Null),
          "jobTitle" := Get(props, "jobTitle", Str("Unknown Position")),
          "company" := Get(props, "company", Str("Unknown Company")),
          "formData" := Obj(cleaned)]
  }

  datatype Submission =
    | Invalid(errors: seq<FormError>)                 // errors shown, nothing changes
    | Submitted(session: Session, action: UserInput)  // confetti, selection cleared, action sent

  /** The session after a submission: confetti on, selection cleared, every other attribute as it was. */
  function Celebrate(s: Session): (r: Session)
    ensures r.Keys == s.Keys + {"show_confetti", "selected_jobs"}
    ensures r["show_confetti"] == Bool(true) && r["selected_jobs"] == List([])
    ensures forall k :: k in s && k !in {"show_confetti", "selected_jobs"} ==> r[k] == s[k]
  {
    s["show_confetti" := Bool(true)]["selected_jobs" := List([])]
  }

  /**
   * Pressing "Submit Application" on a form whose widgets returned
   * `inputs`: either the validation errors, or the session with confetti
   * on and the selection cleared, and the action to send.
   */
  function SubmitApplication(s: Session, props: Dict, fields: seq<FormField>, inputs: seq<FieldValue>,
                             sessionId: string): (r: Submission)
    requires |inputs| == |fields|
    requires "session_id" in s && s["session_id"] == Str(sessionId)
    ensures var fd := FormData(fields, inputs);
      r.Invalid? <==> exists k :: 0 <= k < |fields| && !Satisfied(fields[k], fd[fields[k].id])
    ensures r.Invalid? ==> r.errors != [] && r.errors == ValidationErrors(fields, FormData(fields, inputs))
    ensures r.Submitted? ==>
      && r.session.Keys == s.Keys + {"show_confetti", "selected_jobs"}
      && r.session["show_confetti"] == Bool(true)
      && r.session["selected_jobs"] == List([])
      && (forall k :: k in s && k !in {"show_confetti", "selected_jobs"} ==> r.session[k] == s[k])
      && r.action == ActionInput("FORM_SUBMISSION", SubmissionData(props, Clean(FormData(fields, inputs), sessionId)))
  {
    var fd := FormData(fields, inputs);
    var errs := ValidationErrors(fields, fd);
    ValidationErrorsEmpty(fields, fd);
    if errs != [] then Invalid(errs)
    else
      Submitted(Celebrate(s), ActionInput("FORM_SUBMISSION", SubmissionData(props, Clean(fd, sessionId))))
  }

  /** After a submission the selection is empty, so no job list offers the batch "Apply" button. */
  lemma SubmissionClearsApply(s: Session, props: Dict, fields: seq<FormField>, inputs: seq<FieldValue>,
                              sessionId: string, jobs: seq<Dict>)
    requires |inputs| == |fields|
    requires "session_id" in s && s["session_id"] == Str(sessionId)
    ensures var r := SubmitApplication(s, props, fields, inputs, sessionId);
      r.Submitted? ==> r.session["selected_jobs"].List? && ApplySelected(jobs, r.session["selected_jobs"].items).None?
  {
  }
}

=== FILE: dispatch.dfy ===
/**
 * What the chat shows and which buttons send what (main_lambda.py):
 * `display_chat_history` re-validating each logged entry,
 * `render_ui_component` dispatching on the component name, the property
 * defaults of the job list, the retry button of an error display, the
 * next-step buttons of a profile-update confirmation, and
 * `render_recommended_actions`.
 */
module Dispatch {
  import opened Json
  import opened Wrappers
  import opened Schema
  import opened Session
  import opened Jobs
  import opened Forms
  import opened ApplicationForm

  datatype Component =
    | JobListView
    | ApplicationFormView
    | ApplicationSuccessView
    | ProfileFormView
    | ProfileSuccessView
    | ErrorDisplayView
    | Fallback(name: string)  // shows the name and the raw properties

  const KnownComponents: set<string> :=
    {"JobList", "ApplicationForm", "ApplicationSuccess", "ProfileForm", "ProfileSuccess", "ErrorDisplay"}

  /** `render_ui_component`: the renderer a component name selects. */
  function ComponentOf(name: string): (c: Component)
    ensures c.Fallback? <==> name !in KnownComponents
    ensures c.Fallback? ==> c.name == name
  {
    if name == "JobList" then JobListView
    else if name == "ApplicationForm" then ApplicationFormView
    else if name == "ApplicationSuccess" then ApplicationSuccessView
    else if name == "ProfileForm" then ProfileFormView
    else if name == "ProfileSuccess" then ProfileSuccessView
    else if name == "ErrorDisplay" then ErrorDisplayView
    else Fallback(name)
  }

  /** The name the backend uses for each renderer. */
  function ComponentName(c: Component): string {
    match c
    case JobListView => "JobList"
    case ApplicationFormView => "ApplicationForm"
    case ApplicationSuccessView => "ApplicationSuccess"
    case ProfileFormView => "ProfileForm"
    case ProfileSuccessView => "ProfileSuccess"
    case ErrorDisplayView => "ErrorDisplay"
    case Fallback(name) => name
  }

  /** Dispatch loses nothing: every name is recovered from the renderer it selects, so no two names share one. */
  lemma DispatchRoundTrip(name: string)
    ensures ComponentName(ComponentOf(name)) == name
  {
  }

  /** What one logged entry puts on screen. */
  datatype Shown =
    | ShowText(content: string)                      // a text message
    | ShowComponent(component: Component, props: Dict)
    | ShowNothing                                    // a user action has no body
    | DisplayCrash                                   // validation or attribute access raised

  /**
   * `display_chat_history` for one entry: validate it, then write the
   * content of a text message or dispatch a UI component. The message type
   * decides which payload field is read; a payload of another variant has
   * no such attribute and the script stops. This is one step of the loop
   * over the log: an entry that stops the script also hides every later
   * entry, which the model does not fold out.
   */
  function RenderEntry(entry: Value, uuid: string, now: string): (r: Shown)
    ensures r == DisplayCrash <==>
      var v := ModelValidate(entry, uuid, now);
      v.Failure? || (v.value.msgType != UserActionMsg && !Paired(v.value.msgType, v.value.payload))
    ensures ModelValidate(entry, uuid, now).Success? ==>
      var m := ModelValidate(entry, uuid, now).value;
      && (m.msgType == UserActionMsg ==> r == ShowNothing)
      && (m.msgType == TextMsg && m.payload.TextPayload? ==> r == ShowText(m.payload.content))
      && (m.msgType == UiComponentMsg && m.payload.UIComponentPayload? ==>
            r == ShowComponent(ComponentOf(m.payload.componentName), m.payload.componentProps))
  {
    match ModelValidate(entry, uuid, now)
    case Failure(_) => DisplayCrash
    case Success(m) =>
      match m.msgType
      case TextMsg => if m.payload.TextPayload? then ShowText(m.payload.content) else DisplayCrash
      case UiComponentMsg =>
        if m.payload.UIComponentPayload? then ShowComponent(ComponentOf(m.payload.componentName), m.payload.componentProps)
        else DisplayCrash
      case UserActionMsg => ShowNothing
  }

  /** Every message the client logs for the user displays: a prompt as its text, an action as nothing. */
  lemma UserMessagesDisplay(input: UserInput, context: Dict, uuid: string, now: string, uuid2: string, now2: string)
    ensures var m := NewUserMessage(input, context, uuid, now);
      RenderEntry(Obj(ModelDump(m)), uuid2, now2) == (if input.TextInput? then ShowText(input.prompt) else ShowNothing)
  {
    DumpValidateRoundTrip(NewUserMessage(input, context, uuid, now), uuid2, now2);
  }

  /** A backend entry typed 'text' whose payload is an action validates, yet stops the history display. */
  lemma MismatchedEntryCrashes(uuid: string, now: string)
    ensures RenderEntry(Obj(map[
        "sender" := Str("user"), "type" := Str("text"),
        "payload" := Obj(map["actionType" := Str("CLICKED_JOB_APPLY"), "actionData" := Obj(map[])])]), uuid, now)
      == DisplayCrash
  {
    TypeNotTiedToPayload(uuid, now);
  }

  /** What the job list component shows. */
  datatype JobListScreen =
    | NoJobsFound(query: Value, location: Value)
    | JobCards(header: Value, search: Option<(Value, Value)>, jobs: seq<Dict>, totalMatches: Value)
    | JobListCrash  // `len` of an unsized value, criteria or jobs that are not dictionaries, match reasons that cannot be iterated

  /** Python's `len`, defined on lists, strings and dictionaries. */
  function Len(v: Value): Option<nat> {
    match v
    case List(items) => Some(|items|)
    case Str(s) => Some(|s|)
    case Obj(fields) => Some(|fields|)
    case _ => None
  }

  const DefaultHeader: Value := Str("Here are the top job matches I found for you:")

  /**
   * The search line above the cards: the `query` and `location` of truthy
   * criteria, "N/A" for a missing one, nothing for falsy criteria; truthy
   * criteria that are not a dictionary have no `get` (`None`).
   */
  function SearchLine(criteria: Value): (r: Option<Option<(Value, Value)>>)
    ensures r.None? <==> Truthy(criteria) && !criteria.Obj?
    ensures r == Some(None) <==> !Truthy(criteria)
    ensures r.Some? && r.value.Some? ==>
      && r.value.value.0 == Get(criteria.fields, "query", Str("N/A"))
      && r.value.value.1 == Get(criteria.fields, "location", Str("N/A"))
  {
    if !Truthy(criteria) then Some(None)
    else if !criteria.Obj? then None
    else Some(Some((Get(criteria.fields, "query", Str("N/A")), Get(criteria.fields, "location", Str("N/A")))))
  }

  /**
   * A card's match reasons stop the script: the job has a truthy id, so its
   * checkbox and reasons are shown, and its `matchReasons` is truthy but
   * neither a list, a string nor a dictionary, so the `for` loop over it
   * raises a TypeError.
   */
  predicate UniterableReasons(job: Dict) {
    var reasons := Get(job, "matchReasons", List([]));
    Truthy(JobId(job)) && Truthy(reasons) && !(reasons.List? || reasons.Str? || reasons.Obj?)
  }

  /** Some job of the list has match reasons that stop the script. */
  predicate ReasonsCrash(items: seq<Value>) {
    exists k :: 0 <= k < |items| && items[k].Obj? && UniterableReasons(items[k].fields)
  }

  /**
   * The `JobList` branch with `render_scrollable_job_list`: `jobs`
   * defaults to `[]` and `totalMatches` to its length (computed even when
   * the key is present), `searchCriteria` to `{}`; an empty job list shows
   * the warning, otherwise the criteria line needs dictionary criteria,
   * every job must be a dictionary, and no job's match reasons may stop
   * the script.
   */
  function RenderJobList(props: Dict): (r: JobListScreen)
    ensures Len(Get(props, "jobs", List([]))).None? ==> r == JobListCrash
    ensures r.NoJobsFound? ==>
      && !Truthy(Get(props, "jobs", List([])))
      && NoJobsWarning(Get(props, "searchCriteria", EmptyObj)) == Some((r.query, r.location))
    ensures r.JobCards? ==>
      && Get(props, "jobs", List([])) == List(Objs(r.jobs)) && r.jobs != []
      && r.totalMatches == Get(props, "totalMatches", Int(|r.jobs|))
      && Truthy(r.header)
      && (Truthy(Get(props, "message", DefaultHeader)) ==> r.header == Get(props, "message", DefaultHeader))
      && SearchLine(Get(props, "searchCriteria", EmptyObj)) == Some(r.search)
      && forall k :: 0 <= k < |r.jobs| ==> !UniterableReasons(r.jobs[k])
    ensures (var jobs := Get(props, "jobs", List([]));
             var criteria := Get(props, "searchCriteria", EmptyObj);
             && jobs.List? && jobs.items != [] && AllDicts(jobs.items) && !ReasonsCrash(jobs.items)
             && !(Truthy(criteria) && !criteria.Obj?)) ==> r.JobCards?
  {
    var jobs := Get(props, "jobs", List([]));
    var criteria := Get(props, "searchCriteria", EmptyObj);
    match Len(jobs)
    case None => JobListCrash
    case Some(n) =>
      if !Truthy(jobs) then
        match NoJobsWarning(criteria)
        case Some((q, l)) => NoJobsFound(q, l)
        case None => JobListCrash
      else
        var message := Get(props, "message", DefaultHeader);
        var header := if Truthy(message) then message else DefaultHeader;
        match SearchLine(criteria)
        case None => JobListCrash
        case Some(search) =>
          if !(jobs.List? && AllDicts(jobs.items)) || ReasonsCrash(jobs.items) then JobListCrash
          else
            var ds := Dicts(jobs.items);
            assert jobs.items == Objs(ds);
            assert forall k :: 0 <= k < |ds| ==> jobs.items[k] == Obj(ds[k]);
            JobCards(header, search, ds, Get(props, "totalMatches", Int(n)))
  }

  /**
   * The job list stops the script exactly when the jobs have no length,
   * when criteria that are truthy are not a dictionary (whether the list
   * is empty or not), when a non-empty job list is not a list of
   * dictionaries, or when a job's match reasons cannot be iterated.
   */
  lemma JobListCrashes(props: Dict)
    ensures var jobs := Get(props, "jobs", List([]));
      var criteria := Get(props, "searchCriteria", EmptyObj);
      RenderJobList(props) == JobListCrash <==>
        || Len(jobs).None?
        || (Truthy(criteria) && !criteria.Obj?)
        || (Truthy(jobs) && !(jobs.List? && AllDicts(jobs.items)))
        || (jobs.List? && ReasonsCrash(jobs.items))
  {
  }

  /** The retry button of an error display. */
  datatype RetryButton =
    | NoRetryButton
    | Retry(caption: Value, actionType: Value)
    | RetryCrash  // a truthy `retryAction` without `get`

  /**
   * `render_error_display`: a retry button exists when `isRetryable` and
   * `retryAction` are both truthy; it is labelled with the action's label
   * (default "Try Again") and carries its action type (default "RETRY"),
   * whatever value that is, since the label and the widget key are
   * formatted strings.
   */
  function RetryOf(props: Dict): (r: RetryButton)
    ensures r.NoRetryButton? <==>
      !(Truthy(Get(props, "isRetryable", Bool(false))) && Truthy(Get(props, "retryAction", EmptyObj)))
    ensures var ra := Get(props, "retryAction", EmptyObj);
      Truthy(Get(props, "isRetryable", Bool(false))) && Truthy(ra) ==> (r.RetryCrash? <==> !ra.Obj?)
    ensures r.Retry? ==>
      var ra := Get(props, "retryAction", EmptyObj);
      && ra.Obj? && ra.fields != map[]
      && r.caption == Get(ra.fields, "label", Str("Try Again"))
      && r.actionType == Get(ra.fields, "actionType", Str("RETRY"))
  {
    var retryable := Get(props, "isRetryable", Bool(false));
    var ra := Get(props, "retryAction", EmptyObj);
    if !(Truthy(retryable) && Truthy(ra)) then NoRetryButton
    else if !ra.Obj? then RetryCrash
    else Retry(Get(ra.fields, "label", Str("Try Again")), Get(ra.fields, "actionType", Str("RETRY")))
  }

  /**
   * Pressing the retry button calls `send_user_action` with the action type
   * and empty data. The message schema takes only a string action type:
   * any other value fails validation (`None`) before the message is
   * appended, so the press stops the script with the session unchanged.
   */
  function RetryPress(actionType: Value): (r: Option<UserInput>)
    ensures r.Some? <==> actionType.Str?
    ensures r.Some? ==> r.value.ActionInput? && Str(r.value.actionType) == actionType && r.value.actionData == map[]
  {
    if actionType.Str? then Some(ActionInput(actionType.s, map[])) else None
  }

  /** A retryable error whose action names no type retries with "RETRY". */
  lemma RetryDefaultsToRetry()
    ensures RetryOf(map["isRetryable" := Bool(true), "retryAction" := Obj(map["label" := Str("Again")])])
      == Retry(Str("Again"), Str("RETRY"))
    ensures RetryPress(Str("RETRY")) == Some(ActionInput("RETRY", map[]))
  {
    var ra := map["label" := Str("Again")];
    assert Get(ra, "actionType", Str("RETRY")) == Str("RETRY");
    assert Get(ra, "label", Str("Try Again")) == Str("Again");
  }

  /**
   * Any action type shows the button under its caption; pressing it sends
   * the action exactly when the type is a string.
   */
  lemma RetryShownForAnyType(caption: Value, t: Value)
    ensures var ra := map["label" := caption, "actionType" := t];
      && RetryOf(map["isRetryable" := Bool(true), "retryAction" := Obj(ra)]) == Retry(caption, t)
      && (RetryPress(t).Some? <==> t.Str?)
      && (t.Str? ==> RetryPress(t) == Some(ActionInput(t.s, map[])))
  {
    var ra := map["label" := caption, "actionType" := t];
    assert Truthy(Obj(ra)) by { assert "label" in ra; }
    assert Get(ra, "actionType", Str("RETRY")) == t;
    assert Get(ra, "label", Str("Try Again")) == caption;
  }

  /**
   * One of the `nextActions` of a profile-update confirmation: when enabled
   * (the default), `SEARCH_JOBS` sends the prompt "find me jobs" and
   * `UPDATE_PROFILE_AGAIN` the prompt "update my profile"; any other
   * button does nothing.
   */
  function NextActionInput(action: Dict): (r: Option<UserInput>)
    ensures r.Some? <==>
      && Truthy(Get(action, "enabled", Bool(true)))
      && Get(action, "actionType", Null) in {Str("SEARCH_JOBS"), Str("UPDATE_PROFILE_AGAIN")}
    ensures r.Some? ==>
      && r.value.TextInput?
      && (Get(action, "actionType", Null) == Str("SEARCH_JOBS") ==> r.value.prompt == "find me jobs")
      && (Get(action, "actionType", Null) == Str("UPDATE_PROFILE_AGAIN") ==> r.value.prompt == "update my profile")
  {
    if !Truthy(Get(action, "enabled", Bool(true))) then None
    else if Get(action, "actionType", Null) == Str("SEARCH_JOBS") then Some(TextInput("find me jobs"))
    else if Get(action, "actionType", Null) == Str("UPDATE_PROFILE_AGAIN") then Some(TextInput("update my profile"))
    else None
  }

  /** A quick-action button: what it shows and the prompt it sends. */
  datatype QuickAction = QuickAction(caption: string, message: string, description: string, kind: string)

  /** A button is primary when its kind is "search" or "profile". */
  predicate Primary(a: QuickAction) {
    a.kind in {"search", "profile"}
  }

  /**
   * `render_recommended_actions`: show and update the profile always, then
   * a job search, worded "find me more jobs" once the session has a job list.
   */
  function RecommendedActions(s: Session): (actions: seq<QuickAction>)
    ensures |actions| == 3
    ensures actions[0].message == "show my profile" && !Primary(actions[0])
    ensures actions[1].message == "update my profile" && Primary(actions[1])
    ensures Primary(actions[2]) && actions[2].kind == "search"
    ensures actions[2].message == (if Truthy(Get(s, "has_job_list", Bool(false))) then "find me more jobs" else "find me jobs")
  {
    var search :=
      if Truthy(Get(s, "has_job_list", Bool(false))) then
        QuickAction("🔄 Find More Jobs", "find me more jobs", "Search for additional job opportunities", "search")
      else
        QuickAction("🔍 Find Me Jobs", "find me jobs", "Search for job opportunities", "search");
    [QuickAction("👤 Show My Profile", "show my profile", "View your current profile information", "info"),
     QuickAction("✏️ Update My Profile", "update my profile", "Modify your profile details", "profile"),
     search]
  }

  /** The confetti of `render_chat_interface`: shown while `show_confetti` is truthy, and switched off once shown. */
  function ConsumeConfetti(s: Session): (r: (bool, Session))
    ensures r.0 == Truthy(Get(s, "show_confetti", Bool(false)))
    ensures r.1.Keys == s.Keys + (if r.0 then {"show_confetti"} else {})
    ensures forall k :: k in s && k != "show_confetti" ==> r.1[k] == s[k]
    ensures r.0 ==> r.1["show_confetti"] == Bool(false)
    ensures !r.0 ==> r.1 == s
  {
    if Truthy(Get(s, "show_confetti", Bool(false))) then (true, s["show_confetti" := Bool(false)]) else (false, s)
  }

  /** A submitted application rains confetti on the next render, and only on that one. */
  lemma ConfettiOnce(s: Session, props: Dict, fields: seq<FormField>, inputs: seq<FieldValue>, sessionId: string)
    requires |inputs| == |fields|
    requires "session_id" in s && s["session_id"] == Str(sessionId)
    ensures var r := SubmitApplication(s, props, fields, inputs, sessionId);
      r.Submitted? ==> ConsumeConfetti(r.session).0 && !ConsumeConfetti(ConsumeConfetti(r.session).1).0
  {
    var r := SubmitApplication(s, props, fields, inputs, sessionId);
    if r.Submitted? {
      assert Get(r.session, "show_confetti", Bool(false)) == Bool(true);
      var s2 := ConsumeConfetti(r.session).1;
      assert Get(s2, "show_confetti", Bool(false)) == Bool(false);
    }
  }

  /** What `main` renders below the page header. */
  datatype Screen = ProfileEntry | Chat

  /**
   * `main` after `initialize_session_state`: the profile id prompt until
   * `profile_id_submitted` is truthy, the chat afterwards; a session that
   * has an id but lacks the flag stops the script (`None`).
   */
  function MainScreen(s: Session, sessionId: string): (r: Option<Screen>)
    ensures var s' := InitializeSessionState(s, sessionId);
      && (r.None? <==> "profile_id_submitted" !in s')
      && (r == Some(Chat) <==> "profile_id_submitted" in s' && Truthy(s'["profile_id_submitted"]))
  {
    var s' := InitializeSessionState(s, sessionId);
    if "profile_id_submitted" !in s' then None
    else if Truthy(s'["profile_id_submitted"]) then Some(Chat)
    else Some(ProfileEntry)
  }

  /** A new session asks for the profile id; a started agent shows the chat on every later run. */
  lemma StartAgentOpensChat(sessionId: string, profileId: string, uuid: string, now: string, welcome: string, id2: string)
    requires profileId != ""
    ensures MainScreen(map[], sessionId) == Some(ProfileEntry)
    ensures var s := InitializeSessionState(map[], sessionId);
      var started := StartAgent(s, profileId, uuid, now, welcome);
      started.Some? && MainScreen(started.value, id2) == Some(Chat)
  {
    var s := InitializeSessionState(map[], sessionId);
    assert s == InitialSession(sessionId);
    assert s["profile_id_submitted"] == Bool(false);
  }

  /** A new session offers "find me jobs"; once the backend sets `has_job_list`, "find me more jobs". */
  lemma JobListChangesSearchPrompt(sessionId: string, updated: Dict)
    requires "has_job_list" in updated && "messages" !in updated && Truthy(updated["has_job_list"])
    ensures RecommendedActions(InitialSession(sessionId))[2].message == "find me jobs"
    ensures var r := Reconcile(InitialSession(sessionId), Obj(map["updated_state" := Obj(updated)]), TextPath);
      r.Applied? && RecommendedActions(r.session)[2].message == "find me more jobs"
  {
    var s := InitialSession(sessionId);
    var reply := Obj(map["updated_state" := Obj(updated)]);
    assert Get(reply.fields, "ai_responses", List([])) == List([]);
    var r := Reconcile(s, reply, TextPath);
    assert r.session["has_job_list"] == updated["has_job_list"];
  }
}

=== FILE: forms.dfy ===
/**
 * What the application form and the profile form (main_lambda.py) share:
 * the field records the backend sends, the value each widget hands back,
 * the `form_data` dictionary built from them, and the "required" check.
 *
 * A field record holds the entries the renderers read, with their
 * defaults already applied: `type` defaults to "text", `required` to
 * False (kept as its truthiness), `section` to "general", `options` to
 * the empty list, and `acceptedTypes` is `None` when the key is absent.
 */
module Forms {
  import opened Json
  import opened Wrappers
  import opened Text

  datatype FormField = FormField(
    id: string,
    text: string,
    kind: string,                        // the `type` entry
    value: Value,                        // the pre-filled `value`, `None` when absent
    required: bool,
    options: seq<string>,                // choices of a `select` field
    section: string,                     // grouping of the profile form
    acceptedTypes: Option<seq<string>>)  // formats of a `file` field

  /** What a browser file upload reports: its name, size in bytes and MIME type. */
  datatype UploadedFile = UploadedFile(name: string, size: nat, mime: string)

  /**
   * The value a widget returns on submission: the text of a text input,
   * text area, radio or select box, the number of a number input, the ISO
   * form of a picked date, an uploaded file, or `None` (no file uploaded,
   * or a select box without options).
   */
  datatype FieldValue =
    | Text(s: string)
    | Number(n: int)
    | Date(iso: string)
    | File(file: UploadedFile)
    | Nothing

  /** Python truthiness of a widget value; dates and upload records are always true. */
  predicate FieldTruthy(v: FieldValue) {
    match v
    case Text(s) => s != ""
    case Number(n) => n != 0
    case Date(_) => true
    case File(_) => true
    case Nothing => false
  }

  /** `not value or (isinstance(value, str) and not value.strip())`. */
  predicate Blank(v: FieldValue) {
    !FieldTruthy(v) || (v.Text? && AllSpace(v.s))
  }

  /** A blank value is `None`, zero, or text of whitespace only. */
  lemma BlankCases(v: FieldValue)
    ensures Blank(v) <==> v == Nothing || v == Number(0) || (v.Text? && Strip(v.s) == "")
  {
  }

  datatype FormError =
    | PleaseUpload(fieldText: string)   // "Please upload ..."
    | PleaseFillIn(fieldText: string)   // "Please fill in ..."

  function Ids(fields: seq<FormField>): (ids: seq<string>)
    ensures |ids| == |fields|
    ensures forall k :: 0 <= k < |fields| ==> ids[k] == fields[k].id
  {
    seq(|fields|, k requires 0 <= k < |fields| => fields[k].id)
  }

  /** Index `k` holds the last occurrence of its id. */
  predicate LastOf(ids: seq<string>, k: int) {
    0 <= k < |ids| && forall l :: k < l < |ids| ==> ids[l] != ids[k]
  }

  /**
   * `form_data[field_id] = ...` for each field in turn: a dictionary with
   * one entry per distinct id, where a later field overwrites an earlier
   * one with the same id.
   */
  function LastWins<T>(ids: seq<string>, vals: seq<T>): (m: map<string, T>)
    requires |ids| == |vals|
    ensures forall key :: key in m <==> key in ids
    ensures forall k :: LastOf(ids, k) ==> m[ids[k]] == vals[k]
  {
    if ids == [] then map[]
    else
      var n := |ids| - 1;
      assert ids == ids[..n] + [ids[n]] && vals == vals[..n] + [vals[n]];
      var m := LastWins(ids[..n], vals[..n]);
      LastWinsStep(ids[..n], vals[..n], m, ids[n], vals[n]);
      m[ids[n] := vals[n]]
  }

  /** Writing one more entry over the dictionary of all earlier ones. */
  lemma LastWinsStep<T>(ids: seq<string>, vals: seq<T>, m: map<string, T>, id: string, v: T)
    requires |ids| == |vals|
    requires forall key :: key in m <==> key in ids
    requires forall k :: LastOf(ids, k) ==> m[ids[k]] == vals[k]
    ensures var m' := m[id := v];
      && (forall key :: key in m' <==> key in ids + [id])
      && (forall k :: LastOf(ids + [id], k) ==> m'[(ids + [id])[k]] == (vals + [v])[k])
  {
    var ids' := ids + [id];
    assert forall l :: 0 <= l < |ids| ==> ids'[l] == ids[l];
    forall k | LastOf(ids', k) ensures m[id := v][ids'[k]] == (vals + [v])[k] {
      if k < |ids| {
        assert ids'[k] == ids[k] && ids'[|ids|] == id;
        assert LastOf(ids, k);
      }
    }
  }

  /** Every id has a last occurrence. */
  lemma {:induction false} LastOfExists(ids: seq<string>, k: int)
    requires 0 <= k < |ids|
    ensures exists j :: k <= j && LastOf(ids, j) && ids[j] == ids[k]
    decreases |ids| - k
  {
    if !LastOf(ids, k) {
      var l :| k < l < |ids| && ids[l] == ids[k];
      LastOfExists(ids, l);
    }
  }

  /**
   * Two dictionaries built over the same ids agree pointwise on whatever
   * the values at the last occurrence of each id agree on.
   */
  lemma {:induction false} LastWinsAligned<T, U>(ids: seq<string>, xs: seq<T>, ys: seq<U>, rel: (T, U) -> bool)
    requires |ids| == |xs| == |ys|
    requires forall k :: 0 <= k < |ids| ==> rel(xs[k], ys[k])
    ensures var mx := LastWins(ids, xs); var my := LastWins(ids, ys);
      mx.Keys == my.Keys && forall key :: key in mx ==> rel(mx[key], my[key])
  {
    var mx := LastWins(ids, xs);
    var my := LastWins(ids, ys);
    forall key | key in mx ensures rel(mx[key], my[key]) {
      assert key in ids;
      var k :| 0 <= k < |ids| && ids[k] == key;
      LastOfExists(ids, k);
      var j :| k <= j && LastOf(ids, j) && ids[j] == ids[k];
      assert mx[key] == xs[j] && my[key] == ys[j];
    }
  }

  /** The `form_data` of a form whose widgets returned `inputs`, one per field in rendering order. */
  function FormData(fields: seq<FormField>, inputs: seq<FieldValue>): (fd: map<string, FieldValue>)
    requires |inputs| == |fields|
    ensures forall key :: key in fd <==> key in Ids(fields)
    ensures forall k :: 0 <= k < |fields| ==> fields[k].id in fd
    ensures forall k :: LastOf(Ids(fields), k) ==> fd[fields[k].id] == inputs[k]
  {
    var fd := LastWins(Ids(fields), inputs);
    assert forall k :: 0 <= k < |fields| ==> Ids(fields)[k] in Ids(fields);
    fd
  }
}

=== FILE: jobs.dfy ===
/**
 * Job selection in the job list component (main_lambda.py): the "Select
 * All" and "Clear All" buttons, the per-card checkbox, and the batch
 * "Apply" action built from the selection. Jobs are the dictionaries of
 * the component's `jobs` property; the selection is the list held in
 * `selected_jobs`. Python's `in` and `list.remove` compare with `==`,
 * modelled as equality of values.
 */
module Jobs {
  import opened Json
  import opened Wrappers
  import opened Schema
  import opened Seqs

  function JobId(job: Dict): Value {
    Get(job, "id", Null)
  }

  /** "Select All": the truthy job ids, in list order. */
  function SelectAll(jobs: seq<Dict>): (ids: seq<Value>)
    ensures |ids| <= |jobs|
    ensures forall k :: 0 <= k < |ids| ==> Truthy(ids[k])
    ensures forall v :: v in ids <==> exists k :: 0 <= k < |jobs| && JobId(jobs[k]) == v && Truthy(v)
  {
    if jobs == [] then []
    else
      var rest := SelectAll(jobs[1..]);
      assert forall k :: 1 <= k < |jobs| ==> jobs[k] == jobs[1..][k - 1];
      if Truthy(JobId(jobs[0])) then [JobId(jobs[0])] + rest else rest
  }

  /** Selecting all of two lists shown one after the other selects all of each, in order. */
  lemma {:induction false} SelectAllAppend(a: seq<Dict>, b: seq<Dict>)
    ensures SelectAll(a + b) == SelectAll(a) + SelectAll(b)
  {
    if a == [] {
      assert a + b == b;
    } else {
      assert (a + b)[1..] == a[1..] + b;
      SelectAllAppend(a[1..], b);
    }
  }

  /** "Clear All" empties the selection. */
  const ClearAll: seq<Value> := []

  /** No value occurs twice. */
  predicate NoDup(xs: seq<Value>) {
    forall v :: v in multiset(xs) ==> multiset(xs)[v] == 1
  }

  /** `list.remove(x)` guarded by `x in list`: the first occurrence goes, if there is one. */
  function RemoveFirst(xs: seq<Value>, x: Value): (r: seq<Value>)
    ensures x !in xs ==> r == xs
    ensures x in xs ==> exists i :: 0 <= i < |xs| && xs[i] == x && x !in xs[..i] && r == xs[..i] + xs[i + 1..]
    ensures multiset(r) == multiset(xs) - multiset{x}
  {
    if x !in xs then xs
    else
      var i := IndexOf(xs, x);
      assert xs == xs[..i] + [x] + xs[i + 1..];
      xs[..i] + xs[i + 1..]
  }

  /** Removing the value just appended to a list that did not hold it restores the list. */
  lemma RemoveAppended(xs: seq<Value>, x: Value)
    requires x !in xs
    ensures RemoveFirst(xs + [x], x) == xs
  {
    var ys := xs + [x];
    var i := IndexOf(ys, x);
    assert ys[..|xs|] == xs;
  }

  /**
   * The checkbox of one card: a checked box adds the job's id when it is
   * missing, a cleared box removes it when present; a job without a
   * truthy id has no checkbox.
   */
  function Toggle(selected: seq<Value>, jobId: Value, checked: bool): (r: seq<Value>)
    ensures !Truthy(jobId) ==> r == selected
    ensures Truthy(jobId) && checked ==> r == (if jobId in selected then selected else selected + [jobId])
    ensures Truthy(jobId) && !checked ==> multiset(r) == multiset(selected) - multiset{jobId}
    ensures forall v :: v != jobId ==> multiset(r)[v] == multiset(selected)[v]
    ensures NoDup(selected) ==> NoDup(r)
    ensures NoDup(selected) && Truthy(jobId) ==> (jobId in r <==> checked)
  {
    if !Truthy(jobId) then selected
    else if checked then
      if jobId in selected then selected else selected + [jobId]
    else RemoveFirst(selected, jobId)
  }

  /** Ticking a box and clearing it again leaves the selection as it was. */
  lemma ToggleRoundTrip(selected: seq<Value>, jobId: Value)
    requires Truthy(jobId) && jobId !in selected
    ensures Toggle(Toggle(selected, jobId, true), jobId, false) == selected
  {
    RemoveAppended(selected, jobId);
  }

  /** Whether a card is shown as selected. */
  predicate IsSelected(selected: seq<Value>, job: Dict) {
    Truthy(JobId(job)) && JobId(job) in selected
  }

  /** The summary of one job sent with the batch application. */
  function JobRecord(job: Dict): (rec: Dict)
    ensures rec.Keys == {"jobId", "jobTitle", "company"}
    ensures rec["jobId"] == JobId(job)
    ensures rec["jobTitle"] == Get(job, "title", Str("Unknown Title"))
    ensures rec["company"] == Get(job, "company", Str("Unknown Company"))
  {
    map["jobId" := JobId(job),
        "jobTitle" := Get(job, "title", Str("Unknown Title")),
        "company" := Get(job, "company", Str("Unknown Company"))]
  }

  /** The records of the listed jobs whose id is in the selection, in list order. */
  function SelectedJobData(jobs: seq<Dict>, selected: seq<Value>): (data: seq<Dict>)
    ensures |data| <= |jobs|
    ensures forall k :: 0 <= k < |data| ==>
      exists j :: 0 <= j < |jobs| && JobId(jobs[j]) in selected && data[k] == JobRecord(jobs[j])
    ensures forall j :: 0 <= j < |jobs| && JobId(jobs[j]) in selected ==> JobRecord(jobs[j]) in data
  {
    if jobs == [] then []
    else
      var rest := SelectedJobData(jobs[1..], selected);
      assert forall k :: 1 <= k < |jobs| ==> jobs[k] == jobs[1..][k - 1];
      if JobId(jobs[0]) in selected then [JobRecord(jobs[0])] + rest else rest
  }

  lemma {:induction false} SelectedJobDataAppend(a: seq<Dict>, b: seq<Dict>, selected: seq<Value>)
    ensures SelectedJobData(a + b, selected) == SelectedJobData(a, selected) + SelectedJobData(b, selected)
  {
    if a == [] {
      assert a + b == b;
    } else {
      assert (a + b)[1..] == a[1..] + b;
      SelectedJobDataAppend(a[1..], b, selected);
    }
  }

  /** One job contributes its record exactly when its id is selected. */
  lemma SelectedJobDataSingle(job: Dict, selected: seq<Value>)
    ensures SelectedJobData([job], selected) == (if JobId(job) in selected then [JobRecord(job)] else [])
  {
    assert [job][1..] == [];
  }

  /** The `jobId` of each record. */
  function RecordIds(data: seq<Dict>): (ids: seq<Value>)
    ensures |ids| == |data|
    ensures forall k :: 0 <= k < |data| ==> ids[k] == Get(data[k], "jobId", Null)
  {
    if data == [] then [] else [Get(data[0], "jobId", Null)] + RecordIds(data[1..])
  }

  /**
   * With a selection that holds exactly the truthy ids of the list, the
   * records sent are one per job with a truthy id, in list order.
   */
  lemma {:induction false} CoveringSelection(jobs: seq<Dict>, selected: seq<Value>)
    requires forall k :: 0 <= k < |jobs| ==> (JobId(jobs[k]) in selected <==> Truthy(JobId(jobs[k])))
    ensures RecordIds(SelectedJobData(jobs, selected)) == SelectAll(jobs)
  {
    if jobs != [] {
      assert forall k :: 1 <= k < |jobs| ==> jobs[k] == jobs[1..][k - 1];
      CoveringSelection(jobs[1..], selected);
    }
  }

  /** "Select All" followed by "Apply" sends every job that has a truthy id, once each, in list order. */
  lemma SelectAllThenApply(jobs: seq<Dict>)
    ensures RecordIds(SelectedJobData(jobs, SelectAll(jobs))) == SelectAll(jobs)
  {
    CoveringSelection(jobs, SelectAll(jobs));
  }

  /**
   * The "Apply to N Selected Jobs" button, offered only while the selection
   * is non-empty: a `CLICKED_JOB_APPLY` action carrying the records of the
   * listed jobs that are selected and their number.
   */
  function ApplySelected(jobs: seq<Dict>, selected: seq<Value>): (r: Option<UserInput>)
    ensures r.Some? <==> selected != []
    ensures r.Some? ==>
      && r.value.ActionInput?
      && r.value.actionType == "CLICKED_JOB_APPLY"
      && r.value.actionData.Keys == {"selectedJobs", "jobCount"}
      && r.value.actionData["selectedJobs"].List?
      && AllDicts(r.value.actionData["selectedJobs"].items)
      && r.value.actionData["jobCount"] == Int(|r.value.actionData["selectedJobs"].items|)
      && Dicts(r.value.actionData["selectedJobs"].items) == SelectedJobData(jobs, selected)
  {
    if selected == [] then None
    else
      var data := SelectedJobData(jobs, selected);
      DictsObjs(data);
      Some(ActionInput("CLICKED_JOB_APPLY", map["selectedJobs" := List(Objs(data)), "jobCount" := Int(|data|)]))
  }

  /**
   * The selection outlives the list it was made in: ids chosen in another
   * job list keep the button on screen, yet none of this list's jobs is sent.
   */
  lemma StaleSelectionSendsNothing()
    ensures var jobs := [map["id" := Str("j2")]];
      var r := ApplySelected(jobs, [Str("j1")]);
      r.Some? && r.value.actionData["jobCount"] == Int(0)
  {
    var jobs: seq<Dict> := [map["id" := Str("j2")]];
    assert jobs[1..] == [];
    assert SelectedJobData(jobs, [Str("j1")]) == [];
  }

  /**
   * The warning shown for an empty job list: the search's `query` and
   * `location`, defaulting to "your search" and "your location" when the
   * criteria are falsy or lack the key. Truthy criteria that are not a
   * dictionary have no `get` and stop the script (`None`).
   */
  function NoJobsWarning(criteria: Value): (r: Option<(Value, Value)>)
    ensures r.None? <==> Truthy(criteria) && !criteria.Obj?
    ensures !Truthy(criteria) ==> r == Some((Str("your search"), Str("your location")))
    ensures criteria.Obj? ==>
      && r.Some?
      && ("query" in criteria.fields ==> r.value.0 == criteria.fields["query"])
      && ("query" !in criteria.fields ==> r.value.0 == Str("your search"))
      && ("location" in criteria.fields ==> r.value.1 == criteria.fields["location"])
      && ("location" !in criteria.fields ==> r.value.1 == Str("your location"))
  {
    if !Truthy(criteria) then Some((Str("your search"), Str("your location")))
    else if !criteria.Obj? then None
    else Some((Get(criteria.fields, "query", Str("your search")), Get(criteria.fields, "location", Str("your location"))))
  }
}

=== FILE: json.dfy ===
/**
 * JSON-shaped values as the client sees them once a backend reply, a
 * message dump or a component property bag has been decoded: Python's
 * `None`, `bool`, `int`, `str`, `list` and `dict` with string keys.
 * Floating-point numbers are not part of the model.
 */
module Json {

  datatype Value =
    | Null
    | Bool(b: bool)
    | Int(i: int)
    | Str(s: string)
    | List(items: seq<Value>)
    | Obj(fields: map<string, Value>)

  /** A decoded dictionary, the shape of every entry of the message log. */
  type Dict = map<string, Value>

  /** Python truthiness: `None`, `False`, `0`, `""`, `[]` and `{}` are false. */
  predicate Truthy(v: Value) {
    match v
    case Null => false
    case Bool(b) => b
    case Int(i) => i != 0
    case Str(s) => s != ""
    case List(items) => items != []
    case Obj(fields) => fields != map[]
  }

  /** The six falsy values: every other value is truthy. */
  lemma FalsyValues(v: Value)
    ensures !Truthy(v) <==> v in [Null, Bool(false), Int(0), Str(""), List([]), Obj(map[])]
  {
  }

  /** `d.get(key, default)` on a dictionary. */
  function Get(d: Dict, key: string, default: Value): (r: Value)
    ensures key in d ==> r == d[key]
    ensures key !in d ==> r == default
  {
    if key in d then d[key] else default
  }

  /** The empty dictionary `{}`. */
  const EmptyObj: Value := Obj(map[])

  /** Whether every element of a list is a dictionary. */
  predicate AllDicts(vs: seq<Value>) {
    forall k :: 0 <= k < |vs| ==> vs[k].Obj?
  }

  /** The dictionaries of a list all of whose elements are dictionaries. */
  function Dicts(vs: seq<Value>): (ds: seq<Dict>)
    requires AllDicts(vs)
    ensures |ds| == |vs|
    ensures forall k :: 0 <= k < |vs| ==> vs[k] == Obj(ds[k])
  {
    if vs == [] then [] else [vs[0].fields] + Dicts(vs[1..])
  }

  /** Wraps a sequence of dictionaries as a list of values. */
  function Objs(ds: seq<Dict>): (vs: seq<Value>)
    ensures |vs| == |ds|
    ensures forall k :: 0 <= k < |ds| ==> vs[k] == Obj(ds[k])
    ensures AllDicts(vs)
  {
    if ds == [] then [] else [Obj(ds[0])] + Objs(ds[1..])
  }

  /** `Objs` and `Dicts` are inverse to each other. */
  lemma DictsObjs(ds: seq<Dict>)
    ensures Dicts(Objs(ds)) == ds
  {
    var back := Dicts(Objs(ds));
    assert |back| == |ds|;
    forall k | 0 <= k < |ds|
      ensures back[k] == ds[k]
    {
      assert Objs(ds)[k] == Obj(back[k]);
    }
  }

  lemma ObjsAppend(a: seq<Dict>, b: seq<Dict>)
    ensures Objs(a + b) == Objs(a) + Objs(b)
  {
    var l := Objs(a + b);
    var r := Objs(a) + Objs(b);
    assert |l| == |r|;
    forall k | 0 <= k < |l| ensures l[k] == r[k] {
      if k < |a| { assert (a + b)[k] == a[k]; } else { assert (a + b)[k] == b[k - |a|]; }
    }
  }
}

=== FILE: profile.dfy ===
/**
 * `render_profile_form` (main_lambda.py): fields grouped by section in
 * order of first appearance, the required-field check, and change
 * detection against the pre-filled values, which sends only what changed
 * as `PROFILE_FORM_SUBMISSION`. Its widgets are text areas, e-mail and
 * phone inputs, number inputs and text inputs, so every submitted value
 * is text or a number.
 */
module ProfileForm {
  import opened Json
  import opened Wrappers
  import opened Text
  import opened Schema
  import opened Forms
  import opened Seqs

  /** The fields of one section, in their original order. */
  function Filter(fields: seq<FormField>, section: string): (r: seq<FormField>)
    ensures |r| <= |fields|
    ensures forall k :: 0 <= k < |r| ==> r[k].section == section
    ensures forall f :: f in r <==> f in fields && f.section == section
  {
    if fields == [] then []
    else
      var rest := Filter(fields[1..], section);
      assert fields == [fields[0]] + fields[1..];
      if fields[0].section == section then [fields[0]] + rest else rest
  }

  /** The fields outside one section. */
  function FilterOut(fields: seq<FormField>, section: string): (r: seq<FormField>)
    ensures forall f :: f in r <==> f in fields && f.section != section
  {
    if fields == [] then []
    else
      var rest := FilterOut(fields[1..], section);
      assert fields == [fields[0]] + fields[1..];
      if fields[0].section != section then [fields[0]] + rest else rest
  }

  /** The sections of the form, each once, in order of first appearance. */
  function Sections(fields: seq<FormField>): (secs: seq<string>)
    ensures forall i, j :: 0 <= i < j < |secs| ==> secs[i] != secs[j]
    ensures forall s :: s in secs <==> exists k :: 0 <= k < |fields| && fields[k].section == s
  {
    if fields == [] then []
    else
      var n := |fields| - 1;
      var init := Sections(fields[..n]);
      assert forall k :: 0 <= k < n ==> fields[..n][k] == fields[k];
      if fields[n].section in init then init else init + [fields[n].section]
  }

  /** The fields of a section among two runs of fields are those of each run, one after the other. */
  lemma {:induction false} FilterAppend(a: seq<FormField>, b: seq<FormField>, section: string)
    ensures Filter(a + b, section) == Filter(a, section) + Filter(b, section)
  {
    if a == [] {
      assert a + b == b;
    } else {
      assert (a + b)[1..] == a[1..] + b;
      FilterAppend(a[1..], b, section);
    }
  }

  /** Index `k` holds the first field of `section`. */
  predicate FirstOf(fields: seq<FormField>, section: string, k: int) {
    0 <= k < |fields| && fields[k].section == section && forall l :: 0 <= l < k ==> fields[l].section != section
  }

  /** A section's first field in a prefix is its first field in the whole list. */
  lemma FirstOfPrefix(fields: seq<FormField>, n: nat, section: string, k: int)
    requires n <= |fields|
    requires exists l :: 0 <= l < n && fields[l].section == section
    ensures FirstOf(fields, section, k) <==> FirstOf(fields[..n], section, k)
  {
    var l :| 0 <= l < n && fields[l].section == section;
    if FirstOf(fields, section, k) {
      assert k <= l;
    }
  }

  /** Of two sections in `secs`, the earlier one has the earlier first field. */
  predicate FirstAppearanceOrder(fields: seq<FormField>, secs: seq<string>) {
    forall i, j, ki, kj ::
      && 0 <= i < j < |secs| && 0 <= ki < |fields| && 0 <= kj < |fields|
      && FirstOf(fields, secs[i], ki) && FirstOf(fields, secs[j], kj)
      ==> ki < kj
  }

  /** `Sections` lists each section at the place of its first field: earlier first fields, earlier sections. */
  lemma {:induction false} SectionsInFirstAppearanceOrder(fields: seq<FormField>)
    ensures FirstAppearanceOrder(fields, Sections(fields))
  {
    if fields != [] {
      var n := |fields| - 1;
      var p := fields[..n];
      var init := Sections(p);
      var secs := Sections(fields);
      SectionsInFirstAppearanceOrder(p);
      assert forall k :: 0 <= k < n ==> p[k] == fields[k];
      forall i, j, ki, kj | 0 <= i < j < |secs| && FirstOf(fields, secs[i], ki) && FirstOf(fields, secs[j], kj)
        ensures ki < kj
      {
        assert secs[i] == init[i];
        var l :| 0 <= l < n && p[l].section == init[i];
        FirstOfPrefix(fields, n, init[i], ki);
        if j < |init| {
          assert secs[j] == init[j];
          var l' :| 0 <= l' < n && p[l'].section == init[j];
          FirstOfPrefix(fields, n, init[j], kj);
          assert FirstOf(p, init[i], ki) && FirstOf(p, init[j], kj);
          assert FirstAppearanceOrder(p, init);
        } else {
          assert secs[j] == fields[n].section && fields[n].section !in init;
          assert ki <= l;
          assert kj == n;
        }
      }
    }
  }

  /** The section names of the groups, in order. */
  function GroupKeys(groups: seq<(string, seq<FormField>)>): (keys: seq<string>)
    ensures |keys| == |groups|
    ensures forall i :: 0 <= i < |groups| ==> keys[i] == groups[i].0
  {
    seq(|groups|, i requires 0 <= i < |groups| => groups[i].0)
  }

  /** One pass of the grouping loop: the field joins its section's list, created at the end when new. */
  function AddToGroup(groups: seq<(string, seq<FormField>)>, f: FormField): seq<(string, seq<FormField>)> {
    var keys := GroupKeys(groups);
    if f.section in keys then
      var i := IndexOf(keys, f.section);
      groups[i := (f.section, groups[i].1 + [f])]
    else groups + [(f.section, [f])]
  }

  /** The `fields_by_section` dictionary, filled field by field, in its iteration (insertion) order. */
  function GroupBySection(fields: seq<FormField>): seq<(string, seq<FormField>)> {
    if fields == [] then []
    else
      var n := |fields| - 1;
      AddToGroup(GroupBySection(fields[..n]), fields[n])
  }

  /** A grouping of `p` by its sections, with each group holding exactly that section's fields. */
  predicate GroupedBy(groups: seq<(string, seq<FormField>)>, p: seq<FormField>) {
    var secs := Sections(p);
    && |groups| == |secs|
    && forall i :: 0 <= i < |groups| ==> groups[i] == (secs[i], Filter(p, secs[i]))
  }

  /** One field is kept exactly when it belongs to the section. */
  lemma FilterSingle(f: FormField, section: string)
    ensures Filter([f], section) == (if f.section == section then [f] else [])
  {
    assert [f][1..] == [];
  }

  /** Appending a field adds it to the end of its own section's fields and leaves the other sections' fields alone. */
  lemma FilterSnoc(p: seq<FormField>, f: FormField, section: string)
    ensures Filter(p + [f], section) == Filter(p, section) + (if f.section == section then [f] else [])
  {
    FilterAppend(p, [f], section);
    FilterSingle(f, section);
  }

  /** A field of a section already grouped joins the end of that section's group. */
  lemma JoinGroup(groups: seq<(string, seq<FormField>)>, p: seq<FormField>, f: FormField)
    requires GroupedBy(groups, p) && f.section in Sections(p)
    ensures GroupedBy(AddToGroup(groups, f), p + [f])
  {
    var secs := Sections(p);
    var q := p + [f];
    assert q[..|p|] == p;
    assert Sections(q) == secs;
    assert GroupKeys(groups) == secs;
    var i := IndexOf(secs, f.section);
    var g' := groups[i := (f.section, groups[i].1 + [f])];
    assert AddToGroup(groups, f) == g';
    forall j | 0 <= j < |g'| ensures g'[j] == (secs[j], Filter(q, secs[j])) {
      FilterSnoc(p, f, secs[j]);
      assert groups[j] == (secs[j], Filter(p, secs[j]));
      if j != i {
        assert secs[j] != secs[i];
        assert Filter(q, secs[j]) == Filter(p, secs[j]) + [] == Filter(p, secs[j]);
      } else {
        assert Filter(q, secs[j]) == Filter(p, secs[j]) + [f];
      }
    }
  }

  /** A section no field belongs to has no fields. */
  lemma FilterNone(fields: seq<FormField>, section: string)
    requires forall k :: 0 <= k < |fields| ==> fields[k].section != section
    ensures Filter(fields, section) == []
  {
    if fields != [] {
      FilterNone(fields[1..], section);
    }
  }

  /** A field of a new section opens a group of its own at the end. */
  lemma NewGroup(groups: seq<(string, seq<FormField>)>, p: seq<FormField>, f: FormField)
    requires GroupedBy(groups, p) && f.section !in Sections(p)
    ensures GroupedBy(AddToGroup(groups, f), p + [f])
  {
    var secs := Sections(p);
    var q := p + [f];
    assert q[..|p|] == p;
    var secs' := secs + [f.section];
    assert Sections(q) == secs';
    assert GroupKeys(groups) == secs;
    var g' := groups + [(f.section, [f])];
    assert AddToGroup(groups, f) == g';
    FilterNone(p, f.section);
    forall j | 0 <= j < |g'| ensures g'[j] == (secs'[j], Filter(q, secs'[j])) {
      FilterSnoc(p, f, secs'[j]);
      if j < |secs| {
        assert secs'[j] == secs[j] != f.section;
        assert g'[j] == groups[j];
        assert groups[j] == (secs[j], Filter(p, secs[j]));
        assert Filter(q, secs[j]) == Filter(p, secs[j]) + [] == Filter(p, secs[j]);
      } else {
        assert secs'[j] == f.section;
        assert Filter(q, f.section) == [f];
        assert g'[j] == (f.section, [f]);
      }
    }
  }

  /**
   * The grouping loop yields one group per section, in order of first
   * appearance, holding exactly that section's fields in their order.
   */
  lemma {:induction false} GroupBySectionByFilter(fields: seq<FormField>)
    ensures var groups := GroupBySection(fields);
      var secs := Sections(fields);
      && |groups| == |secs|
      && forall i :: 0 <= i < |groups| ==> groups[i] == (secs[i], Filter(fields, secs[i]))
  {
    if fields != [] {
      var n := |fields| - 1;
      var p := fields[..n];
      var f := fields[n];
      GroupBySectionByFilter(p);
      assert fields == p + [f];
      if f.section in Sections(p) {
        JoinGroup(GroupBySection(p), p, f);
      } else {
        NewGroup(GroupBySection(p), p, f);
      }
    }
  }

  /** The groups' fields, one group after another. */
  function Flatten(groups: seq<(string, seq<FormField>)>): seq<FormField> {
    if groups == [] then [] else groups[0].1 + Flatten(groups[1..])
  }

  /** The groups of the given sections, one after another. */
  function FlattenFilters(fields: seq<FormField>, secs: seq<string>): seq<FormField> {
    if secs == [] then [] else Filter(fields, secs[0]) + FlattenFilters(fields, secs[1..])
  }

  /** The order in which the fields are rendered, and so written into `form_data`. */
  function RenderOrder(fields: seq<FormField>): seq<FormField> {
    Flatten(GroupBySection(fields))
  }

  lemma {:induction false} FilterSplit(fields: seq<FormField>, section: string)
    ensures multiset(fields) == multiset(Filter(fields, section)) + multiset(FilterOut(fields, section))
  {
    if fields != [] {
      var tl := fields[1..];
      FilterSplit(tl, section);
      assert fields == [fields[0]] + tl;
      if fields[0].section == section {
        assert Filter(fields, section) == [fields[0]] + Filter(tl, section);
        assert FilterOut(fields, section) == FilterOut(tl, section);
      } else {
        assert Filter(fields, section) == Filter(tl, section);
        assert FilterOut(fields, section) == [fields[0]] + FilterOut(tl, section);
      }
    }
  }

  lemma {:induction false} FilterOfFilterOut(fields: seq<FormField>, s: string, t: string)
    requires s != t
    ensures Filter(FilterOut(fields, s), t) == Filter(fields, t)
  {
    if fields != [] {
      FilterOfFilterOut(fields[1..], s, t);
    }
  }

  lemma {:induction false} FlattenWithout(fields: seq<FormField>, s: string, secs: seq<string>)
    requires s !in secs
    ensures FlattenFilters(FilterOut(fields, s), secs) == FlattenFilters(fields, secs)
  {
    if secs != [] {
      FilterOfFilterOut(fields, s, secs[0]);
      FlattenWithout(fields, s, secs[1..]);
    }
  }

  /** Grouping by any list of distinct sections that covers every field loses and repeats nothing. */
  lemma {:induction false} FlattenPermutes(fields: seq<FormField>, secs: seq<string>)
    requires forall i, j :: 0 <= i < j < |secs| ==> secs[i] != secs[j]
    requires forall k :: 0 <= k < |fields| ==> fields[k].section in secs
    ensures multiset(FlattenFilters(fields, secs)) == multiset(fields)
    decreases |secs|
  {
    if secs == [] {
      assert fields == [];
    } else {
      var s := secs[0];
      var rest := FilterOut(fields, s);
      forall k | 0 <= k < |rest| ensures rest[k].section in secs[1..] {
        assert rest[k] in rest;
      }
      assert s !in secs[1..];
      FlattenPermutes(rest, secs[1..]);
      FlattenWithout(fields, s, secs[1..]);
      FilterSplit(fields, s);
    }
  }

  /** Groups that are the given sections' fields flatten to those sections' fields, one section after another. */
  lemma {:induction false} FlattenGroups(fields: seq<FormField>, groups: seq<(string, seq<FormField>)>, secs: seq<string>)
    requires |groups| == |secs|
    requires forall i :: 0 <= i < |groups| ==> groups[i].1 == Filter(fields, secs[i])
    ensures Flatten(groups) == FlattenFilters(fields, secs)
  {
    if groups != [] {
      FlattenGroups(fields, groups[1..], secs[1..]);
    }
  }

  /** Rendering goes section by section, in order of first appearance. */
  lemma RenderOrderBySection(fields: seq<FormField>)
    ensures RenderOrder(fields) == FlattenFilters(fields, Sections(fields))
  {
    GroupBySectionByFilter(fields);
    FlattenGroups(fields, GroupBySection(fields), Sections(fields));
  }

  /** Every field is rendered exactly once. */
  lemma RenderOrderPermutes(fields: seq<FormField>)
    ensures multiset(RenderOrder(fields)) == multiset(fields)
  {
    RenderOrderBySection(fields);
    FlattenPermutes(fields, Sections(fields));
  }

  /** The pre-filled values, in rendering order. */
  function Values(fields: seq<FormField>): (vs: seq<Value>)
    ensures |vs| == |fields|
    ensures forall k :: 0 <= k < |fields| ==> vs[k] == fields[k].value
  {
    seq(|fields|, k requires 0 <= k < |fields| => fields[k].value)
  }

  /** A value a profile widget can return. */
  predicate ProfileValue(v: FieldValue) {
    v.Text? || v.Number?
  }

  /**
   * `str(original_value).strip()`, or "" for `None`. The `str` of a list
   * or dictionary is not modelled (`None`).
   */
  function OriginalStr(v: Value): (r: Option<string>)
    ensures v == Null ==> r == Some("")
    ensures v.Str? ==> r == Some(Strip(v.s))
    ensures v.Int? ==> r == Some(IntToString(v.i))
    ensures v.Bool? ==> r == Some(if v.b then "True" else "False")
    ensures r.None? <==> v.List? || v.Obj?
  {
    match v
    case Null => Some("")
    case Bool(b) => Some(if b then "True" else "False")
    case Int(i) => IntTextStripped(i); Some(Strip(IntToString(i)))
    case Str(s) => Some(Strip(s))
    case _ => None
  }

  /** `str(new_value).strip()`. */
  function NewStr(v: FieldValue): (r: string)
    requires ProfileValue(v)
    ensures v.Text? ==> r == Strip(v.s)
    ensures v.Number? ==> r == IntToString(v.n)
    ensures r == "" <==> v.Text? && AllSpace(v.s)
  {
    if v.Text? then Strip(v.s)
    else
      IntTextStripped(v.n);
      Strip(IntToString(v.n))
  }

  /** The normalised old and new values differ. */
  predicate Changed(original: Value, v: FieldValue)
    requires ProfileValue(v)
  {
    OriginalStr(original) != Some(NewStr(v))
  }

  /**
   * `changed_fields`: the keys whose normalised value changed, each with
   * its trimmed new value. A cleared field is sent as "", since then the
   * trimmed new value is empty.
   */
  function ProfileDiff(original: map<string, Value>, fd: map<string, FieldValue>): (diff: Dict)
    requires forall key :: key in fd ==> ProfileValue(fd[key])
    ensures forall key :: key in diff <==> key in fd && Changed(Get(original, key, Null), fd[key])
    ensures forall key :: key in diff ==> diff[key] == Str(NewStr(fd[key]))
  {
    map key | key in fd && Changed(Get(original, key, Null), fd[key]) :: Str(NewStr(fd[key]))
  }

  /** What is sent never carries surrounding whitespace, and is empty only for a field that had a value and was cleared. */
  lemma DiffValuesTrimmed(original: map<string, Value>, fd: map<string, FieldValue>, key: string)
    requires forall key :: key in fd ==> ProfileValue(fd[key])
    ensures key in ProfileDiff(original, fd) ==>
      var v := ProfileDiff(original, fd)[key];
      && v.Str?
      && (v.s != "" ==> !IsSpace(v.s[0]) && !IsSpace(v.s[|v.s| - 1]))
      && (v.s == "" ==> fd[key].Text? && OriginalStr(Get(original, key, Null)) != Some(""))
  {
  }

  /** `original_values`: the pre-filled value of each id, the last field with that id winning. */
  function OriginalValues(order: seq<FormField>): map<string, Value> {
    LastWins(Ids(order), Values(order))
  }

  /** The required fields, in their original order, whose value is blank. */
  function ProfileErrors(fields: seq<FormField>, fd: map<string, FieldValue>): (errs: seq<FormError>)
    requires forall k :: 0 <= k < |fields| ==> fields[k].id in fd
    ensures |errs| <= |fields|
    ensures forall e :: e in errs ==> e.PleaseFillIn?
    ensures errs == [] <==> forall k :: 0 <= k < |fields| ==> !fields[k].required || !Blank(fd[fields[k].id])
  {
    if fields == [] then []
    else
      var rest := ProfileErrors(fields[1..], fd);
      assert forall k :: 0 <= k < |fields[1..]| ==> fields[1..][k] == fields[k + 1];
      if fields[0].required && Blank(fd[fields[0].id]) then [PleaseFillIn(fields[0].text)] + rest else rest
  }

  /** One field asks to be filled in exactly when it is required and its value is blank. */
  lemma ProfileErrorsSingle(f: FormField, fd: map<string, FieldValue>)
    requires f.id in fd
    ensures ProfileErrors([f], fd) == (if f.required && Blank(fd[f.id]) then [PleaseFillIn(f.text)] else [])
  {
    assert [f][1..] == [];
  }

  /** The messages of two runs of fields are those of each run, one after the other: form order is kept. */
  lemma {:induction false} ProfileErrorsAppend(a: seq<FormField>, b: seq<FormField>, fd: map<string, FieldValue>)
    requires forall k :: 0 <= k < |a| ==> a[k].id in fd
    requires forall k :: 0 <= k < |b| ==> b[k].id in fd
    ensures forall k :: 0 <= k < |a + b| ==> (a + b)[k].id in fd
    ensures ProfileErrors(a + b, fd) == ProfileErrors(a, fd) + ProfileErrors(b, fd)
  {
    if a == [] {
      assert a + b == b;
    } else {
      assert (a + b)[1..] == a[1..] + b;
      ProfileErrorsAppend(a[1..], b, fd);
    }
  }

  datatype ProfileOutcome =
    | ProfileInvalid(errors: seq<FormError>)  // errors shown
    | NoChanges                                // "No changes detected"
    | ProfileSubmitted(action: UserInput)      // only the changed fields are sent

  /**
   * Pressing "Update Profile" on a form whose widgets returned `entries`,
   * one per field in rendering order.
   */
  function SubmitProfile(fields: seq<FormField>, entries: seq<FieldValue>): (r: ProfileOutcome)
    requires |entries| == |fields|
    requires forall k :: 0 <= k < |entries| ==> ProfileValue(entries[k])
    ensures var order := RenderOrder(fields);
      |order| == |fields| &&
      var fd := FormData(order, entries);
      && (forall k :: 0 <= k < |fields| ==> fields[k].id in fd)
      && (r.ProfileInvalid? <==> exists k :: 0 <= k < |fields| && fields[k].required && Blank(fd[fields[k].id]))
      && (r.ProfileInvalid? ==> r.errors == ProfileErrors(fields, fd))
      && (forall key :: key in fd ==> ProfileValue(fd[key]))
      && (r.NoChanges? <==> !r.ProfileInvalid? && ProfileDiff(OriginalValues(order), fd) == map[])
      && (r.ProfileSubmitted? ==>
            r.action == ActionInput("PROFILE_FORM_SUBMISSION", map["formData" := Obj(ProfileDiff(OriginalValues(order), fd))]))
  {
    var order := RenderOrder(fields);
    RenderedFormData(fields, entries);
    var fd := FormData(order, entries);
    var errs := ProfileErrors(fields, fd);
    if errs != [] then ProfileInvalid(errs)
    else
      var diff := ProfileDiff(OriginalValues(order), fd);
      if diff == map[] then NoChanges
      else ProfileSubmitted(ActionInput("PROFILE_FORM_SUBMISSION", map["formData" := Obj(diff)]))
  }

  /** The form data of the rendered form has a key for every field, and holds only text and numbers. */
  lemma RenderedFormData(fields: seq<FormField>, entries: seq<FieldValue>)
    requires |entries| == |fields|
    requires forall k :: 0 <= k < |entries| ==> ProfileValue(entries[k])
    ensures |RenderOrder(fields)| == |fields|
    ensures var fd := FormData(RenderOrder(fields), entries);
      && (forall k :: 0 <= k < |fields| ==> fields[k].id in fd)
      && (forall key :: key in fd ==> ProfileValue(fd[key]))
  {
    var order := RenderOrder(fields);
    RenderOrderPermutes(fields);
    assert |order| == |multiset(order)| == |multiset(fields)| == |fields|;
    var fd := FormData(order, entries);
    forall k | 0 <= k < |fields| ensures fields[k].id in fd {
      assert fields[k] in multiset(order);
      var j :| 0 <= j < |order| && order[j] == fields[k];
      assert Ids(order)[j] == fields[k].id;
    }
    forall key | key in fd ensures ProfileValue(fd[key]) {
      var k :| 0 <= k < |order| && Ids(order)[k] == key;
      LastOfExists(Ids(order), k);
    }
  }

  /**
   * The widget still shows what it was pre-filled with: text fields their
   * string value ("" for none), number fields their integer value. A number
   * field without a pre-filled value is not covered: its widget starts at
   * its minimum, which then reads as a change (see `UnfilledNumberIsSent`).
   */
  predicate Untouched(f: FormField, v: FieldValue) {
    if f.kind == "number" then f.value.Int? && v == Number(f.value.i)
    else (f.value == Null && v == Text("")) || (f.value.Str? && v == Text(f.value.s))
  }

  /** Submitting a profile form nobody edited detects no change. */
  lemma UntouchedProfileUnchanged(order: seq<FormField>, entries: seq<FieldValue>)
    requires |entries| == |order|
    requires forall k :: 0 <= k < |order| ==> Untouched(order[k], entries[k])
    ensures forall key :: key in FormData(order, entries) ==> ProfileValue(FormData(order, entries)[key])
    ensures ProfileDiff(OriginalValues(order), FormData(order, entries)) == map[]
  {
    var values := Values(order);
    var same := (x: Value, y: FieldValue) => ProfileValue(y) && OriginalStr(x) == Some(NewStr(y));
    forall k | 0 <= k < |order| ensures same(values[k], entries[k]) {
      var f := order[k];
      if f.kind == "number" {
        assert NewStr(entries[k]) == Strip(IntToString(f.value.i));
        assert OriginalStr(values[k]) == Some(Strip(IntToString(f.value.i)));
      } else if f.value == Null {
        assert Strip("") == "";
        assert NewStr(entries[k]) == "";
      } else {
        assert NewStr(entries[k]) == Strip(f.value.s);
      }
    }
    LastWinsAligned(Ids(order), values, entries, same);
    var original := OriginalValues(order);
    var fd := FormData(order, entries);
    assert fd == LastWins(Ids(order), entries);
    forall key | key in fd ensures ProfileValue(fd[key]) && !Changed(Get(original, key, Null), fd[key]) {
      assert same(original[key], fd[key]);
    }
    assert ProfileDiff(original, fd).Keys == {};
  }

  /** An unedited profile form whose number fields all had a pre-filled integer is never sent. */
  lemma UntouchedFormSendsNothing(fields: seq<FormField>, entries: seq<FieldValue>)
    requires |entries| == |fields|
    requires forall k :: 0 <= k < |entries| ==> ProfileValue(entries[k])
    requires |RenderOrder(fields)| == |entries|
    requires forall k :: 0 <= k < |entries| ==> Untouched(RenderOrder(fields)[k], entries[k])
    ensures !SubmitProfile(fields, entries).ProfileSubmitted?
  {
    UntouchedProfileUnchanged(RenderOrder(fields), entries);
  }

  /** A form of one field renders that field. */
  lemma SingleFieldOrder(f: FormField)
    ensures RenderOrder([f]) == [f]
  {
    RenderOrderPermutes([f]);
    var order := RenderOrder([f]);
    assert |order| == |multiset(order)| == 1;
    assert order[0] in multiset(order);
  }

  /**
   * A number field with no pre-filled value starts at its minimum (0 by
   * default); left untouched, it counts as changed from "" to "0" and is sent.
   */
  lemma UnfilledNumberIsSent(f: FormField)
    requires f.kind == "number" && f.value == Null && !f.required
    ensures SubmitProfile([f], [Number(0)])
      == ProfileSubmitted(ActionInput("PROFILE_FORM_SUBMISSION", map["formData" := Obj(map[f.id := Str("0")])]))
  {
    SingleFieldOrder(f);
    var order := RenderOrder([f]);
    var fd := FormData(order, [Number(0)]);
    assert Ids(order) == [f.id];
    assert fd == map[f.id := Number(0)];
    assert OriginalValues(order) == map[f.id := Null];
    assert NewStr(Number(0)) == "0";
    assert ProfileDiff(OriginalValues(order), fd) == map[f.id := Str("0")];
  }
}

=== FILE: schema.dfy ===
/**
 * The `ChatMessage` envelope of schema.py and pydantic's validation of it.
 *
 * A message is validated from a dictionary (`ChatMessage.model_validate`, and
 * the keyword constructor, which validates its keyword arguments the same
 * way) and dumped back to one (`model_dump`). Missing `id`, `timestamp`,
 * `context` and `metadata` take their defaults; the generated UUID and the
 * current time are parameters. Keys the schema does not know are ignored.
 */
module Schema {
  import opened Json
  import opened Wrappers
  import opened Text

  datatype Sender = User | Ai

  datatype MsgType = TextMsg | UiComponentMsg | UserActionMsg

  /** The three payload models of the `Union` in schema.py. */
  datatype Payload =
    | TextPayload(content: string)
    | UIComponentPayload(componentName: string, componentProps: Dict)
    | UserActionPayload(actionType: string, actionData: Dict)

  /** A validated message; `timestamp` is kept as opaque ISO-8601 text. */
  datatype ChatMessage = ChatMessage(
    id: string,
    sender: Sender,
    timestamp: string,
    msgType: MsgType,
    payload: Payload,
    context: Dict,
    metadata: Dict)

  /** The envelope fields, in declaration order, as validation errors name them. */
  datatype SchemaField = RootField | IdField | SenderField | TimestampField
                       | TypeField | PayloadField | ContextField | MetadataField

  function SenderName(s: Sender): string {
    match s
    case User => "user"
    case Ai => "ai"
  }

  function TypeName(t: MsgType): string {
    match t
    case TextMsg => "text"
    case UiComponentMsg => "ui_component"
    case UserActionMsg => "user_action"
  }

  /** `Literal['user', 'ai']`: exactly the two strings are accepted. */
  function ParseSender(v: Value): (r: Option<Sender>)
    ensures r.Some? <==> v == Str("user") || v == Str("ai")
    ensures r.Some? ==> v == Str(SenderName(r.value))
  {
    if v == Str("user") then Some(User)
    else if v == Str("ai") then Some(Ai)
    else None
  }

  /** `Literal['text', 'ui_component', 'user_action']`. */
  function ParseType(v: Value): (r: Option<MsgType>)
    ensures r.Some? <==> v == Str("text") || v == Str("ui_component") || v == Str("user_action")
    ensures r.Some? ==> v == Str(TypeName(r.value))
  {
    if v == Str("text") then Some(TextMsg)
    else if v == Str("ui_component") then Some(UiComponentMsg)
    else if v == Str("user_action") then Some(UserActionMsg)
    else None
  }

  /** A `str` field that is present. */
  predicate HasStr(d: Dict, key: string) {
    key in d && d[key].Str?
  }

  /** A `Dict[str, Any]` field that is present. */
  predicate HasObj(d: Dict, key: string) {
    key in d && d[key].Obj?
  }

  predicate TextShape(v: Value) {
    v.Obj? && HasStr(v.fields, "content")
  }

  predicate UIComponentShape(v: Value) {
    v.Obj? && HasStr(v.fields, "componentName") && HasObj(v.fields, "componentProps")
  }

  predicate UserActionShape(v: Value) {
    v.Obj? && HasStr(v.fields, "actionType") && HasObj(v.fields, "actionData")
  }

  /**
   * Validation of `Union[TextPayload, UIComponentPayload, UserActionPayload]`
   * in pydantic's smart mode: of the members that validate, the one with the
   * most fields set wins, ties going to the earlier member. The two
   * two-field models therefore take precedence over `TextPayload`.
   */
  function ParsePayload(v: Value): (r: Option<Payload>)
    ensures r.Some? <==> TextShape(v) || UIComponentShape(v) || UserActionShape(v)
    ensures r.Some? && r.value.TextPayload? ==>
      TextShape(v) && !UIComponentShape(v) && !UserActionShape(v) && r.value.content == v.fields["content"].s
    ensures r.Some? && r.value.UIComponentPayload? ==>
      UIComponentShape(v)
      && r.value.componentName == v.fields["componentName"].s
      && r.value.componentProps == v.fields["componentProps"].fields
    ensures r.Some? && r.value.UserActionPayload? ==>
      UserActionShape(v) && !UIComponentShape(v)
      && r.value.actionType == v.fields["actionType"].s
      && r.value.actionData == v.fields["actionData"].fields
  {
    if UIComponentShape(v) then
      Some(UIComponentPayload(v.fields["componentName"].s, v.fields["componentProps"].fields))
    else if UserActionShape(v) then
      Some(UserActionPayload(v.fields["actionType"].s, v.fields["actionData"].fields))
    else if TextShape(v) then
      Some(TextPayload(v.fields["content"].s))
    else None
  }

  /** An optional `str` field with a default. */
  function OptionalStr(d: Dict, key: string, default: string): Option<string> {
    if key !in d then Some(default)
    else if d[key].Str? then Some(d[key].s)
    else None
  }

  /** An optional `Dict[str, Any]` field defaulting to `{}`. */
  function OptionalObj(d: Dict, key: string): Option<Dict> {
    if key !in d then Some(map[])
    else if d[key].Obj? then Some(d[key].fields)
    else None
  }

  /** A required field run through a parser. */
  function Required<T>(d: Dict, key: string, parse: Value -> Option<T>): Option<T> {
    if key in d then parse(d[key]) else None
  }

  /** The entry for one field: the field when it fails, nothing otherwise. */
  function Part(fails: bool, field: SchemaField): (r: seq<SchemaField>)
    ensures fails ==> r == [field]
    ensures !fails ==> r == []
  {
    if fails then [field] else []
  }

  /** Membership in a concatenation of seven error lists. */
  lemma InSeven(r: seq<SchemaField>, e1: seq<SchemaField>, e2: seq<SchemaField>, e3: seq<SchemaField>,
                e4: seq<SchemaField>, e5: seq<SchemaField>, e6: seq<SchemaField>, e7: seq<SchemaField>)
    requires r == e1 + e2 + e3 + e4 + e5 + e6 + e7
    ensures |r| == |e1| + |e2| + |e3| + |e4| + |e5| + |e6| + |e7|
    ensures forall x :: x in r <==> x in e1 || x in e2 || x in e3 || x in e4 || x in e5 || x in e6 || x in e7
  {
  }

  /** The error list for the given failures of the seven fields, in declaration order. */
  function Parts(b1: bool, b2: bool, b3: bool, b4: bool, b5: bool, b6: bool, b7: bool): seq<SchemaField> {
    Part(b1, IdField) + Part(b2, SenderField) + Part(b3, TimestampField) + Part(b4, TypeField)
    + Part(b5, PayloadField) + Part(b6, ContextField) + Part(b7, MetadataField)
  }

  /** At most one entry per field, and never the root. */
  lemma PartsBounded(b1: bool, b2: bool, b3: bool, b4: bool, b5: bool, b6: bool, b7: bool)
    ensures var r := Parts(b1, b2, b3, b4, b5, b6, b7);
      |r| <= 7 && RootField !in r
  {
    var e1, e2, e3, e4 := Part(b1, IdField), Part(b2, SenderField), Part(b3, TimestampField), Part(b4, TypeField);
    var e5, e6, e7 := Part(b5, PayloadField), Part(b6, ContextField), Part(b7, MetadataField);
    InSeven(Parts(b1, b2, b3, b4, b5, b6, b7), e1, e2, e3, e4, e5, e6, e7);
  }

  /** The message fields proper are named exactly when they fail. */
  lemma PartsNameHeader(b1: bool, b2: bool, b3: bool, b4: bool, b5: bool, b6: bool, b7: bool)
    ensures var r := Parts(b1, b2, b3, b4, b5, b6, b7);
      (IdField in r <==> b1) && (SenderField in r <==> b2) && (TimestampField in r <==> b3) && (TypeField in r <==> b4)
  {
    var e1, e2, e3, e4 := Part(b1, IdField), Part(b2, SenderField), Part(b3, TimestampField), Part(b4, TypeField);
    var e5, e6, e7 := Part(b5, PayloadField), Part(b6, ContextField), Part(b7, MetadataField);
    InSeven(Parts(b1, b2, b3, b4, b5, b6, b7), e1, e2, e3, e4, e5, e6, e7);
  }

  /** The payload and the two dictionaries are named exactly when they fail. */
  lemma PartsNameBody(b1: bool, b2: bool, b3: bool, b4: bool, b5: bool, b6: bool, b7: bool)
    ensures var r := Parts(b1, b2, b3, b4, b5, b6, b7);
      (PayloadField in r <==> b5) && (ContextField in r <==> b6) && (MetadataField in r <==> b7)
  {
    var e1, e2, e3, e4 := Part(b1, IdField), Part(b2, SenderField), Part(b3, TimestampField), Part(b4, TypeField);
    var e5, e6, e7 := Part(b5, PayloadField), Part(b6, ContextField), Part(b7, MetadataField);
    InSeven(Parts(b1, b2, b3, b4, b5, b6, b7), e1, e2, e3, e4, e5, e6, e7);
  }

  /** One error entry per field that fails, in declaration order. */
  function FieldErrors(d: Dict, uuid: string, now: string): seq<SchemaField> {
    Parts(OptionalStr(d, "id", "msg_" + uuid).None?,
          Required(d, "sender", ParseSender).None?,
          OptionalStr(d, "timestamp", now).None?,
          Required(d, "type", ParseType).None?,
          Required(d, "payload", ParsePayload).None?,
          OptionalObj(d, "context").None?,
          OptionalObj(d, "metadata").None?)
  }

  /**
   * The error list names each field that fails, and no other: an optional
   * field fails only when present with the wrong type, a required one when
   * missing or rejected by its parser.
   */
  lemma FieldErrorsNameFailures(d: Dict, uuid: string, now: string)
    ensures var r := FieldErrors(d, uuid, now);
      && |r| <= 7 && RootField !in r
      && (IdField in r <==> "id" in d && !d["id"].Str?)
      && (SenderField in r <==> "sender" !in d || ParseSender(d["sender"]).None?)
      && (TimestampField in r <==> "timestamp" in d && !d["timestamp"].Str?)
      && (TypeField in r <==> "type" !in d || ParseType(d["type"]).None?)
      && (PayloadField in r <==> "payload" !in d || ParsePayload(d["payload"]).None?)
      && (ContextField in r <==> "context" in d && !d["context"].Obj?)
      && (MetadataField in r <==> "metadata" in d && !d["metadata"].Obj?)
  {
    var b1 := OptionalStr(d, "id", "msg_" + uuid).None?;
    var b2 := Required(d, "sender", ParseSender).None?;
    var b3 := OptionalStr(d, "timestamp", now).None?;
    var b4 := Required(d, "type", ParseType).None?;
    var b5 := Required(d, "payload", ParsePayload).None?;
    var b6 := OptionalObj(d, "context").None?;
    var b7 := OptionalObj(d, "metadata").None?;
    assert FieldErrors(d, uuid, now) == Parts(b1, b2, b3, b4, b5, b6, b7);
    PartsBounded(b1, b2, b3, b4, b5, b6, b7);
    PartsNameHeader(b1, b2, b3, b4, b5, b6, b7);
    PartsNameBody(b1, b2, b3, b4, b5, b6, b7);
  }

  /**
   * `ChatMessage.model_validate(raw)`; `uuid` and `now` stand for the values
   * the `id` and `timestamp` default factories would produce.
   */
  function ModelValidate(raw: Value, uuid: string, now: string): (r: Result<ChatMessage, seq<SchemaField>>)
    ensures r.Failure? ==> r.error != []
    ensures r.Success? <==> raw.Obj? && FieldErrors(raw.fields, uuid, now) == []
    ensures r.Success? ==>
      var d := raw.fields;
      && Str(SenderName(r.value.sender)) == d["sender"]
      && Str(TypeName(r.value.msgType)) == d["type"]
      && Some(r.value.payload) == ParsePayload(d["payload"])
      && ("id" in d ==> d["id"] == Str(r.value.id))
      && ("id" !in d ==> r.value.id == "msg_" + uuid)
      && ("timestamp" in d ==> d["timestamp"] == Str(r.value.timestamp))
      && ("timestamp" !in d ==> r.value.timestamp == now)
      && ("context" in d ==> d["context"] == Obj(r.value.context))
      && ("context" !in d ==> r.value.context == map[])
      && ("metadata" in d ==> d["metadata"] == Obj(r.value.metadata))
      && ("metadata" !in d ==> r.value.metadata == map[])
  {
    if !raw.Obj? then Failure([RootField])
    else
      var d := raw.fields;
      var errors := FieldErrors(d, uuid, now);
      if errors != [] then Failure(errors)
      else
        Success(ChatMessage(
          OptionalStr(d, "id", "msg_" + uuid).value,
          Required(d, "sender", ParseSender).value,
          OptionalStr(d, "timestamp", now).value,
          Required(d, "type", ParseType).value,
          Required(d, "payload", ParsePayload).value,
          OptionalObj(d, "context").value,
          OptionalObj(d, "metadata").value))
  }

  function DumpPayload(p: Payload): Value {
    match p
    case TextPayload(c) => Obj(map["content" := Str(c)])
    case UIComponentPayload(n, props) => Obj(map["componentName" := Str(n), "componentProps" := Obj(props)])
    case UserActionPayload(t, data) => Obj(map["actionType" := Str(t), "actionData" := Obj(data)])
  }

  /** `model_dump()`: the message as a dictionary. */
  function ModelDump(m: ChatMessage): Dict {
    map[
      "id" := Str(m.id),
      "sender" := Str(SenderName(m.sender)),
      "timestamp" := Str(m.timestamp),
      "type" := Str(TypeName(m.msgType)),
      "payload" := DumpPayload(m.payload),
      "context" := Obj(m.context),
      "metadata" := Obj(m.metadata)]
  }

  /** A dumped payload validates back as the same variant with the same fields. */
  lemma PayloadRoundTrip(p: Payload)
    ensures ParsePayload(DumpPayload(p)) == Some(p)
  {
    match p
    case TextPayload(c) =>
      assert !UIComponentShape(DumpPayload(p)) && !UserActionShape(DumpPayload(p));
    case UIComponentPayload(n, props) =>
    case UserActionPayload(t, data) =>
      assert !UIComponentShape(DumpPayload(p));
  }

  /**
   * Dumping a message and validating the dump gives the message back: id,
   * sender, type, payload variant and fields, context and metadata survive,
   * whatever defaults the validation would otherwise use.
   */
  lemma DumpValidateRoundTrip(m: ChatMessage, uuid: string, now: string)
    ensures ModelValidate(Obj(ModelDump(m)), uuid, now) == Success(m)
  {
    PayloadRoundTrip(m.payload);
    var d := ModelDump(m);
    assert FieldErrors(d, uuid, now) == [];
    assert Required(d, "sender", ParseSender) == Some(m.sender) by {
      match m.sender case User => case Ai =>
    }
    assert Required(d, "type", ParseType) == Some(m.msgType) by {
      match m.msgType case TextMsg => case UiComponentMsg => case UserActionMsg =>
    }
  }

  /** What a user turn carries: typed text or a structured action. */
  datatype UserInput =
    | TextInput(prompt: string)
    | ActionInput(actionType: string, actionData: Dict)

  /**
   * The keyword arguments the client passes to `ChatMessage(...)` for a
   * user turn: sender, type, payload and context; nothing else.
   */
  function UserMessageArgs(input: UserInput, context: Dict): Dict {
    match input
    case TextInput(prompt) =>
      map["sender" := Str("user"), "type" := Str("text"),
          "payload" := DumpPayload(TextPayload(prompt)), "context" := Obj(context)]
    case ActionInput(t, data) =>
      map["sender" := Str("user"), "type" := Str("user_action"),
          "payload" := DumpPayload(UserActionPayload(t, data)), "context" := Obj(context)]
  }

  /** The payload a user input becomes. */
  function InputPayload(input: UserInput): Payload {
    match input
    case TextInput(prompt) => TextPayload(prompt)
    case ActionInput(t, data) => UserActionPayload(t, data)
  }

  /**
   * `ChatMessage(sender='user', type=..., payload=..., context=...)` as the
   * text and action entry points build it. Construction always validates.
   */
  function NewUserMessage(input: UserInput, context: Dict, uuid: string, now: string): (m: ChatMessage)
    ensures StartsWith(m.id, "msg_") && m.id[4..] == uuid
    ensures m.sender == User && m.timestamp == now
    ensures m.msgType == (if input.TextInput? then TextMsg else UserActionMsg)
    ensures m.payload == InputPayload(input)
    ensures m.context == context && m.metadata == map[]
  {
    var args := UserMessageArgs(input, context);
    PayloadRoundTrip(InputPayload(input));
    assert FieldErrors(args, uuid, now) == [];
    var m := ModelValidate(Obj(args), uuid, now).value;
    assert ("msg_" + uuid)[4..] == uuid;
    m
  }

  /** Whether the payload variant is the one `type` names; schema.py does not check it. */
  predicate Paired(t: MsgType, p: Payload) {
    match t
    case TextMsg => p.TextPayload?
    case UiComponentMsg => p.UIComponentPayload?
    case UserActionMsg => p.UserActionPayload?
  }

  /** A `'text'` message carrying a user-action payload passes validation. */
  lemma TypeNotTiedToPayload(uuid: string, now: string)
    ensures var raw := Obj(map[
        "sender" := Str("user"), "type" := Str("text"),
        "payload" := Obj(map["actionType" := Str("CLICKED_JOB_APPLY"), "actionData" := Obj(map[])])]);
      var r := ModelValidate(raw, uuid, now);
      r.Success? && r.value.msgType == TextMsg && r.value.payload.UserActionPayload?
      && !Paired(r.value.msgType, r.value.payload)
  {
    var raw := Obj(map[
        "sender" := Str("user"), "type" := Str("text"),
        "payload" := Obj(map["actionType" := Str("CLICKED_JOB_APPLY"), "actionData" := Obj(map[])])]);
    assert FieldErrors(raw.fields, uuid, now) == [];
  }

  /** A sender other than `'user'`/`'ai'`, or none, is reported as a sender error. */
  lemma BadSenderRejected(raw: Value, uuid: string, now: string)
    requires raw.Obj?
    requires "sender" !in raw.fields || (raw.fields["sender"] != Str("user") && raw.fields["sender"] != Str("ai"))
    ensures var r := ModelValidate(raw, uuid, now);
      r.Failure? && SenderField in r.error
  {
    var e := FieldErrors(raw.fields, uuid, now);
    assert SenderField in e;
  }

  /** A type outside the three literals, or none, is reported as a type error. */
  lemma BadTypeRejected(raw: Value, uuid: string, now: string)
    requires raw.Obj?
    requires "type" !in raw.fields
          || (raw.fields["type"] != Str("text") && raw.fields["type"] != Str("ui_component")
              && raw.fields["type"] != Str("user_action"))
    ensures var r := ModelValidate(raw, uuid, now);
      r.Failure? && TypeField in r.error
  {
    var e := FieldErrors(raw.fields, uuid, now);
    assert TypeField in e;
  }

  /** A payload that has the fields of none of the three variants is reported. */
  lemma ShapelessPayloadRejected(raw: Value, uuid: string, now: string)
    requires raw.Obj? && "payload" in raw.fields
    requires var p := raw.fields["payload"];
      !TextShape(p) && !UIComponentShape(p) && !UserActionShape(p)
    ensures var r := ModelValidate(raw, uuid, now);
      r.Failure? && PayloadField in r.error
  {
    var e := FieldErrors(raw.fields, uuid, now);
    assert PayloadField in e;
  }
}

=== FILE: seqs.dfy ===
/** Sequence helpers shared by the job list and the forms. */
module Seqs {

  /** Python's `xs.index(x)`: the position of the first occurrence of `x`. */
  function IndexOf<T(==)>(xs: seq<T>, x: T): (i: nat)
    requires x in xs
    ensures i < |xs| && xs[i] == x && x !in xs[..i]
  {
    if xs[0] == x then 0
    else
      var i := 1 + IndexOf(xs[1..], x);
      assert xs[..i] == [xs[0]] + xs[1..][..i - 1];
      i
  }
}

=== FILE: session.dfy ===
/**
 * The session state of main_lambda.py and the two turn entry points,
 * `send_user_action` and `process_user_text_input`, as pure functions from
 * a session and the turn's inputs to the next session.
 *
 * `st.session_state` is a map from attribute names to values; the log of
 * messages is the list stored under `messages`. `hasattr(st.session_state,
 * key)` is the test `key in s`.
 */
module Session {
  import opened Json
  import opened Wrappers
  import opened Schema
  import opened Threading
  import opened Api

  type Session = map<string, Value>

  /** `initialize_session_state`: the attributes a new session starts with. */
  function InitialSession(sessionId: string): (s: Session)
    ensures "messages" in s && s["messages"] == List([])
    ensures "selected_jobs" in s && s["selected_jobs"] == List([])
    ensures "session_id" in s && s["session_id"] == Str(sessionId)
    ensures HasTurnState(s) && LogOf(s) == Some([])
    ensures "profile_id_submitted" in s && s["profile_id_submitted"] == Bool(false)
    ensures "show_confetti" in s && s["show_confetti"] == Bool(false)
    ensures s["has_job_list"] == Bool(false) && s["profile_was_updated"] == Bool(false)
    ensures && s["interact_profile_id"] == Null && s["profile"] == Null && s["top_jobs"] == Null
            && s["last_intent"] == Null && s["last_profile_update"] == Null
  {
    map[
      "session_id" := Str(sessionId),
      "messages" := List([]),
      "profile_id_submitted" := Bool(false),
      "show_confetti" := Bool(false),
      "interact_profile_id" := Null,
      "profile" := Null,
      "top_jobs" := Null,
      "has_job_list" := Bool(false),
      "last_intent" := Null,
      "profile_was_updated" := Bool(false),
      "last_profile_update" := Null,
      "selected_jobs" := List([])]
  }

  /**
   * `initialize_session_state`, called on every rerun: a session without a
   * `session_id` receives all the initial attributes, one that has it is
   * left alone.
   */
  function InitializeSessionState(s: Session, sessionId: string): (r: Session)
    ensures "session_id" in s ==> r == s
    ensures "session_id" !in s ==>
      && r.Keys == s.Keys + InitialSession(sessionId).Keys
      && r["session_id"] == Str(sessionId)
      && HasTurnState(r) && LogOf(r) == Some([])
      && (forall key :: key in InitialSession(sessionId) ==> r[key] == InitialSession(sessionId)[key])
      && (forall key :: key in s && key !in InitialSession(sessionId) ==> r[key] == s[key])
  {
    if "session_id" in s then s else s + InitialSession(sessionId)
  }

  /** Reruns keep the session they found: initialising twice is initialising once. */
  lemma InitializeIdempotent(s: Session, id1: string, id2: string)
    ensures InitializeSessionState(InitializeSessionState(s, id1), id2) == InitializeSessionState(s, id1)
  {
  }

  /** The attributes read before the user message is appended: the log and the ids of the threading context. */
  predicate HasThreadState(s: Session) {
    "messages" in s && "interact_profile_id" in s && "session_id" in s
  }

  /** The attributes copied into `complete_state`, read after the user message is appended. */
  predicate HasGraphState(s: Session) {
    && "profile" in s && "top_jobs" in s && "has_job_list" in s && "last_intent" in s
    && "profile_was_updated" in s && "last_profile_update" in s
  }

  /** Every attribute a turn reads. */
  predicate HasTurnState(s: Session) {
    HasThreadState(s) && HasGraphState(s)
  }

  /** The session's log, when `messages` holds a list of dictionaries. */
  function LogOf(s: Session): (log: Option<seq<Dict>>)
    ensures log.Some? <==> "messages" in s && s["messages"].List? && AllDicts(s["messages"].items)
    ensures log.Some? ==> s["messages"] == List(Objs(log.value))
  {
    if "messages" in s && s["messages"].List? && AllDicts(s["messages"].items) then
      var log := Dicts(s["messages"].items);
      assert Objs(log) == s["messages"].items;
      Some(log)
    else None
  }

  /** Session `s` with `log` as its log. */
  function WithLog(s: Session, log: seq<Dict>): (r: Session)
    ensures LogOf(r) == Some(log)
    ensures r.Keys == s.Keys + {"messages"}
    ensures forall k :: k in s && k != "messages" ==> r[k] == s[k]
  {
    DictsObjs(log);
    s["messages" := List(Objs(log))]
  }

  /**
   * The `for key, value in updated_state.items()` loop: keys the session
   * already has are overwritten, all others are ignored.
   */
  function ApplyUpdatedState(s: Session, updated: Dict): (r: Session)
    ensures r.Keys == s.Keys
    ensures forall k :: k in s && k in updated ==> r[k] == updated[k]
    ensures forall k :: k in s && k !in updated ==> r[k] == s[k]
  {
    map k | k in s :: if k in updated then updated[k] else s[k]
  }

  /**
   * The same loop as the source runs it, one `setattr` at a time, in
   * whatever order the dictionary yields its keys.
   */
  method ApplyUpdatesInTurn(s: Session, updated: Dict) returns (r: Session)
    ensures r == ApplyUpdatedState(s, updated)
  {
    r := s;
    var pending := updated.Keys;
    while pending != {}
      invariant pending <= updated.Keys
      invariant r.Keys == s.Keys
      invariant forall k :: k in s ==>
        r[k] == (if k in updated && k !in pending then updated[k] else s[k])
      decreases pending
    {
      var key :| key in pending;
      if key in r {
        r := r[key := updated[key]];
      }
      pending := pending - {key};
    }
  }

  /** Updating with no keys, as the empty envelope does, changes nothing. */
  lemma NoUpdateKeepsSession(s: Session)
    ensures ApplyUpdatedState(s, map[]) == s
  {
  }

  /** Which entry point runs the turn; only text input warns about an empty reply. */
  datatype EntryPoint = TextPath | ActionPath

  function EntryOf(input: UserInput): EntryPoint {
    if input.TextInput? then TextPath else ActionPath
  }

  /**
   * The result of reconciling: the next session and whether the "did not
   * return a valid response" error was shown, or the session at the point
   * where an uncaught exception stopped the script.
   */
  datatype Reconciled =
    | Applied(session: Session, emptyWarning: bool)
    | Crashed(session: Session)

  /** `messages` is a list, so `st.session_state.messages.append` works. */
  predicate HasMessageList(s: Session) {
    "messages" in s && s["messages"].List?
  }

  /** Number of dictionaries at the front of a list. */
  function LeadingDicts(vs: seq<Value>): (n: nat)
    ensures n <= |vs|
    ensures AllDicts(vs[..n])
    ensures n < |vs| ==> !vs[n].Obj?
  {
    if vs == [] || !vs[0].Obj? then 0
    else
      var n := 1 + LeadingDicts(vs[1..]);
      assert vs[..n] == [vs[0]] + vs[1..][..n - 1];
      n
  }

  /**
   * The `for ai_response in ai_responses` loop over a list: dictionaries
   * are appended one by one; anything else has no `model_dump` and stops
   * the script with the dictionaries before it already appended. With no
   * message list the first append stops it.
   */
  function AppendResponses(s: Session, responses: seq<Value>): (r: Reconciled)
    ensures r.Applied? <==> responses == [] || (HasMessageList(s) && AllDicts(responses))
    ensures r.Applied? ==> !r.emptyWarning
    ensures responses == [] || !HasMessageList(s) ==> r.session == s
    ensures responses != [] && HasMessageList(s) ==>
      r.session == s["messages" := List(s["messages"].items + responses[..LeadingDicts(responses)])]
  {
    if responses == [] then Applied(s, false)
    else if !HasMessageList(s) then Crashed(s)
    else
      var n := LeadingDicts(responses);
      var s' := s["messages" := List(s["messages"].items + responses[..n])];
      if n == |responses| then
        assert responses[..n] == responses;
        Applied(s', false)
      else Crashed(s')
  }

  /**
   * Everything after `call_ai_response_api` returns: read `ai_responses` and
   * `updated_state` (defaulting to `[]` and `{}`), apply the update, then
   * append the responses, or, on the text path only, show an error when
   * there are none. Reading from a result that is not a dictionary,
   * iterating an update that is not one, and iterating a truthy
   * `ai_responses` that is not a list all raise.
   */
  function Reconcile(s: Session, result: Value, entry: EntryPoint): (r: Reconciled)
    ensures r.Applied? ==> result.Obj? && Get(result.fields, "updated_state", EmptyObj).Obj?
    ensures r.Applied? ==> r.session.Keys == s.Keys
    ensures r.Applied? ==>
      var updated := Get(result.fields, "updated_state", EmptyObj).fields;
      forall k :: k in s && k != "messages" ==> r.session[k] == (if k in updated then updated[k] else s[k])
    ensures r.Applied? <==>
      && result.Obj?
      && Get(result.fields, "updated_state", EmptyObj).Obj?
      && var ai := Get(result.fields, "ai_responses", List([]));
         var s1 := ApplyUpdatedState(s, Get(result.fields, "updated_state", EmptyObj).fields);
         !Truthy(ai) || (ai.List? && HasMessageList(s1) && AllDicts(ai.items))
    ensures r.Applied? ==>
      var ai := Get(result.fields, "ai_responses", List([]));
      var s1 := ApplyUpdatedState(s, Get(result.fields, "updated_state", EmptyObj).fields);
      && (Truthy(ai) ==> r.session["messages"] == List(s1["messages"].items + ai.items) && !r.emptyWarning)
      && (!Truthy(ai) ==> r.session == s1 && r.emptyWarning == (entry == TextPath))
  {
    if !result.Obj? then Crashed(s)
    else
      var ai := Get(result.fields, "ai_responses", List([]));
      var updated := Get(result.fields, "updated_state", EmptyObj);
      if !updated.Obj? then Crashed(s)
      else
        var s1 := ApplyUpdatedState(s, updated.fields);
        if !Truthy(ai) then Applied(s1, entry == TextPath)
        else if !ai.List? then Crashed(s1)
        else AppendResponses(s1, ai.items)
  }

  /** An empty envelope appends nothing and changes nothing; only text input warns. */
  lemma EmptyEnvelopeReconciles(s: Session, entry: EntryPoint)
    ensures Reconcile(s, EmptyEnvelope, entry) == Applied(s, entry == TextPath)
  {
    NoUpdateKeepsSession(s);
  }

  /**
   * When the backend leaves `messages` alone, the log grows by exactly the
   * AI responses, in order, after what it held before, and every other
   * attribute the session has takes the backend's value if it sent one.
   */
  lemma ResponsesAppendedInOrder(s: Session, log: seq<Dict>, responses: seq<Dict>, updated: Dict, entry: EntryPoint)
    requires LogOf(s) == Some(log) && "messages" !in updated
    ensures var r := Reconcile(s, Obj(map["ai_responses" := List(Objs(responses)), "updated_state" := Obj(updated)]), entry);
      && r.Applied?
      && LogOf(r.session) == Some(log + responses)
      && |r.session["messages"].items| == |log| + |responses|
      && r.emptyWarning == (responses == [] && entry == TextPath)
  {
    var reply := Obj(map["ai_responses" := List(Objs(responses)), "updated_state" := Obj(updated)]);
    var ai := Get(reply.fields, "ai_responses", List([]));
    assert ai == List(Objs(responses));
    assert Get(reply.fields, "updated_state", EmptyObj) == Obj(updated);
    var s1 := ApplyUpdatedState(s, updated);
    assert s1["messages"] == s["messages"] == List(Objs(log));
    var r := Reconcile(s, reply, entry);
    if responses == [] {
      assert !Truthy(ai);
      assert r.session == s1;
      assert LogOf(s1) == Some(log);
      assert log + responses == log;
    } else {
      assert Truthy(ai);
      assert r.Applied?;
      ObjsAppend(log, responses);
      assert r.session["messages"] == List(Objs(log + responses));
      DictsObjs(log + responses);
    }
  }

  /** The stage of a turn before the backend is called. */
  datatype Prepared = Prepared(session: Session, dump: Dict, past: seq<Dict>)

  /**
   * Building and logging the user message: it is threaded to the last AI
   * message, validated with the given defaults, dumped and appended; the
   * past AI responses are then read off the extended log.
   */
  function PrepareTurn(s: Session, input: UserInput, uuid: string, now: string): (p: Prepared)
    requires HasThreadState(s) && LogOf(s).Some?
    ensures LogOf(p.session) == Some(LogOf(s).value + [p.dump])
    ensures p.session.Keys == s.Keys
    ensures forall k :: k in s && k != "messages" ==> p.session[k] == s[k]
    ensures IsUser(p.dump)
    ensures p.dump == ModelDump(NewUserMessage(input, ThreadContext(LogOf(s).value, s["interact_profile_id"], s["session_id"]), uuid, now))
    ensures forall k :: 0 <= k < |p.past| ==> !IsUser(p.past[k])
    ensures CountUsers(LogOf(s).value) == 0 ==> p.past == []
  {
    var log := LogOf(s).value;
    var context := ThreadContext(log, s["interact_profile_id"], s["session_id"]);
    var m := NewUserMessage(input, context, uuid, now);
    var dump := ModelDump(m);
    assert IsUser(dump) by {
      DumpValidateRoundTrip(m, uuid, now);
    }
    PastHoldsNoUser(log + [dump]);
    CountUsersAppend(log, [dump]);
    Prepared(WithLog(s, log + [dump]), dump, PastAiResponses(log + [dump]))
  }

  /**
   * The logged user message reads back as the message built: sent by the
   * user, typed by its input, carrying that input and threaded to the last
   * AI message of the log before it.
   */
  lemma PreparedMessageValidates(s: Session, input: UserInput, uuid: string, now: string, uuid2: string, now2: string)
    requires HasThreadState(s) && LogOf(s).Some?
    ensures var m := ModelValidate(Obj(PrepareTurn(s, input, uuid, now).dump), uuid2, now2);
      && m.Success?
      && m.value.sender == User
      && m.value.msgType == (if input.TextInput? then TextMsg else UserActionMsg)
      && m.value.payload == InputPayload(input)
      && m.value.context == ThreadContext(LogOf(s).value, s["interact_profile_id"], s["session_id"])
  {
    var context := ThreadContext(LogOf(s).value, s["interact_profile_id"], s["session_id"]);
    DumpValidateRoundTrip(NewUserMessage(input, context, uuid, now), uuid2, now2);
  }

  /** Everything one turn produces. */
  datatype TurnOutcome = TurnOutcome(
    session: Session,          // the session after the turn
    sent: Option<Value>,       // the JSON body posted, if a request was made
    userMessage: Option<Dict>, // the dump of the user message appended to the log
    pastAi: seq<Dict>,         // `past_ai_responses` computed for the turn
    notice: Option<ApiNotice>, // the error `call_ai_response_api` showed
    emptyWarning: bool,        // "The AI did not return a valid response"
    crashed: bool)             // an uncaught exception ended the script

  /**
   * One turn of `process_user_text_input` (for `TextInput`) or
   * `send_user_action` (for `ActionInput`): thread the new user message to
   * the last AI message, append it, compute the past AI responses, call the
   * backend and reconcile the reply. `uuid` and `now` feed the message's
   * defaults; `apiKey`, `transport` and `parse` describe the backend call.
   */
  function RunTurn(s: Session, input: UserInput, uuid: string, now: string,
                   apiKey: string, transport: Transport, parse: string -> Option<Value>): (t: TurnOutcome)
    ensures !HasThreadState(s) || LogOf(s).None? ==> t.crashed && t.session == s && t.sent.None? && t.userMessage.None?
    ensures HasThreadState(s) && LogOf(s).Some? && !HasGraphState(s) ==>
      && t.crashed && t.sent.None? && t.userMessage.Some?
      && LogOf(t.session) == Some(LogOf(s).value + [t.userMessage.value])
    ensures !t.crashed ==> t.session.Keys == s.Keys && t.userMessage.Some?
    ensures t.sent.Some? ==>
      && apiKey != "" && t.userMessage.Some?
      && t.sent.value == RequestBody(s["interact_profile_id"], t.userMessage.value)
    ensures t.emptyWarning ==> input.TextInput?
  {
    if !HasThreadState(s) || LogOf(s).None? then
      TurnOutcome(s, None, None, [], None, false, true)
    else
      var p := PrepareTurn(s, input, uuid, now);
      if !HasGraphState(s) then TurnOutcome(p.session, None, Some(p.dump), p.past, None, false, true)
      else
      var api := CallAiResponseApi(apiKey, transport, parse);
      var sent := if apiKey == "" then None else Some(RequestBody(s["interact_profile_id"], p.dump));
      match Reconcile(p.session, api.result, EntryOf(input))
      case Applied(s2, warn) => TurnOutcome(s2, sent, Some(p.dump), p.past, api.notice, warn, false)
      case Crashed(s2) => TurnOutcome(s2, sent, Some(p.dump), p.past, api.notice, false, true)
  }

  /** A turn on a well-formed session is the prepare stage followed by reconciliation of the call's result. */
  lemma {:induction false} RunTurnStages(s: Session, input: UserInput, uuid: string, now: string,
                      apiKey: string, transport: Transport, parse: string -> Option<Value>)
    requires HasTurnState(s) && LogOf(s).Some?
    ensures var p := PrepareTurn(s, input, uuid, now);
      var api := CallAiResponseApi(apiKey, transport, parse);
      var rec := Reconcile(p.session, api.result, EntryOf(input));
      var t := RunTurn(s, input, uuid, now, apiKey, transport, parse);
      && t.session == rec.session
      && t.userMessage == Some(p.dump)
      && t.pastAi == p.past
      && t.notice == api.notice
      && t.crashed == rec.Crashed?
      && t.emptyWarning == (rec.Applied? && rec.emptyWarning)
  {
  }

  /**
   * A failed backend call leaves the session exactly as the append of the
   * user message left it; the text path also warns about the empty reply.
   */
  lemma FailedCallOnlyAppendsUserMessage(s: Session, input: UserInput, uuid: string, now: string,
                                         apiKey: string, transport: Transport, parse: string -> Option<Value>)
    requires HasTurnState(s) && LogOf(s).Some?
    requires CallAiResponseApi(apiKey, transport, parse).notice.Some?
    ensures var t := RunTurn(s, input, uuid, now, apiKey, transport, parse);
      && !t.crashed
      && LogOf(t.session) == Some(LogOf(s).value + [t.userMessage.value])
      && (forall k :: k in s && k != "messages" ==> t.session[k] == s[k])
      && t.emptyWarning == input.TextInput?
  {
    var p := PrepareTurn(s, input, uuid, now);
    EmptyEnvelopeReconciles(p.session, EntryOf(input));
  }

  /**
   * A successful turn whose update leaves `messages` alone grows the log by
   * the user message and then exactly the AI responses, in order.
   */
  lemma TurnGrowsLog(s: Session, input: UserInput, uuid: string, now: string,
                     apiKey: string, status: int, responses: seq<Dict>, updated: Dict,
                     parse: string -> Option<Value>)
    requires HasTurnState(s) && LogOf(s).Some? && apiKey != "" && SuccessStatus(status)
    requires "messages" !in updated
    ensures var reply := Obj(map["ai_responses" := List(Objs(responses)), "updated_state" := Obj(updated)]);
      var t := RunTurn(s, input, uuid, now, apiKey, Replied(status, Some(reply)), parse);
      && !t.crashed && t.notice.None?
      && LogOf(t.session) == Some(LogOf(s).value + [t.userMessage.value] + responses)
  {
    var fields := map["ai_responses" := List(Objs(responses)), "updated_state" := Obj(updated)];
    assert "body" !in fields;
    DirectReplyPassesThrough(apiKey, status, fields, parse);
    RunTurnStages(s, input, uuid, now, apiKey, Replied(status, Some(Obj(fields))), parse);
    PreparedThenReplied(s, input, uuid, now, responses, updated);
  }

  /** The reconciliation step of `TurnGrowsLog`, on the prepared session. */
  lemma PreparedThenReplied(s: Session, input: UserInput, uuid: string, now: string, responses: seq<Dict>, updated: Dict)
    requires HasThreadState(s) && LogOf(s).Some? && "messages" !in updated
    ensures var p := PrepareTurn(s, input, uuid, now);
      var reply := Obj(map["ai_responses" := List(Objs(responses)), "updated_state" := Obj(updated)]);
      var rec := Reconcile(p.session, reply, EntryOf(input));
      rec.Applied? && LogOf(rec.session) == Some(LogOf(s).value + [p.dump] + responses)
  {
    var p := PrepareTurn(s, input, uuid, now);
    ResponsesAppendedInOrder(p.session, LogOf(s).value + [p.dump], responses, updated, EntryOf(input));
  }

  /**
   * `render_profile_input_section` on "Start Agent": a non-empty profile id
   * is stored and the AI's welcome message is logged; an empty one only
   * shows an error and changes nothing.
   */
  function StartAgent(s: Session, profileId: string, uuid: string, now: string, welcome: string): (r: Option<Session>)
    requires HasMessageList(s) && "session_id" in s
    ensures profileId == "" <==> r.None?
    ensures r.Some? ==>
      && r.value.Keys == s.Keys + {"interact_profile_id", "profile_id_submitted"}
      && (forall k :: k in s && k != "interact_profile_id" && k != "profile_id_submitted" && k != "messages" ==> r.value[k] == s[k])
      && "interact_profile_id" in r.value && r.value["interact_profile_id"] == Str(profileId)
      && "profile_id_submitted" in r.value && r.value["profile_id_submitted"] == Bool(true)
      && HasMessageList(r.value)
      && |r.value["messages"].items| == |s["messages"].items| + 1
      && r.value["messages"].items[..|s["messages"].items|] == s["messages"].items
      && var welcomed := r.value["messages"].items[|s["messages"].items|];
         welcomed.Obj? && IsAi(welcomed.fields)
         && Get(welcomed.fields, "type", Null) == Str("text")
         && Get(welcomed.fields, "payload", Null) == Obj(map["content" := Str(welcome)])
         && Get(welcomed.fields, "context", Null) == Obj(map["interact_profile_id" := Str(profileId), "sessionId" := s["session_id"]])
  {
    if profileId == "" then None
    else
      var context := map["interact_profile_id" := Str(profileId), "sessionId" := s["session_id"]];
      var args := map["sender" := Str("ai"), "type" := Str("text"),
                      "payload" := DumpPayload(TextPayload(welcome)), "context" := Obj(context)];
      PayloadRoundTrip(TextPayload(welcome));
      assert FieldErrors(args, uuid, now) == [];
      var m := ModelValidate(Obj(args), uuid, now).value;
      var items := s["messages"].items + [Obj(ModelDump(m))];
      assert items[..|s["messages"].items|] == s["messages"].items;
      Some(s["interact_profile_id" := Str(profileId)]["profile_id_submitted" := Bool(true)]["messages" := List(items)])
  }
}

=== FILE: text.dfy ===
/**
 * The few string operations of Python the client relies on: `str.strip()`,
 * `str(int)`, `str.startswith`, substring tests and `s.split('/')[-1]`.
 */
module Text {

  /** Python's `str.isspace` for one character, as `str.strip()` uses it. */
  predicate IsSpace(c: char) {
    || c == ' ' || c == '\t' || c == '\n' || c == '\r'
    || c == '\U{B}' || c == '\U{C}'
    || ('\U{1C}' <= c <= '\U{1F}')
    || c == '\U{85}' || c == '\U{A0}' || c == '\U{1680}'
    || ('\U{2000}' <= c <= '\U{200A}')
    || c == '\U{2028}' || c == '\U{2029}' || c == '\U{202F}'
    || c == '\U{205F}' || c == '\U{3000}'
  }

  predicate AllSpace(s: string) {
    forall k :: 0 <= k < |s| ==> IsSpace(s[k])
  }

  /** Number of whitespace characters at the front of `s`. */
  function LeadingSpaces(s: string): (n: nat)
    ensures n <= |s|
    ensures AllSpace(s[..n])
    ensures n < |s| ==> !IsSpace(s[n])
  {
    if s == [] || !IsSpace(s[0]) then 0
    else
      var n := 1 + LeadingSpaces(s[1..]);
      assert s[..n] == [s[0]] + s[1..][..n - 1];
      n
  }

  /** Number of whitespace characters at the back of `s`. */
  function TrailingSpaces(s: string): (n: nat)
    ensures n <= |s|
    ensures AllSpace(s[|s| - n..])
    ensures n < |s| ==> !IsSpace(s[|s| - n - 1])
  {
    if s == [] || !IsSpace(s[|s| - 1]) then 0
    else
      var init := s[..|s| - 1];
      var n := 1 + TrailingSpaces(init);
      assert s[|s| - n..] == init[|init| - (n - 1)..] + [s[|s| - 1]];
      n
  }

  /** Python's `s.strip()`: `s` without surrounding whitespace. */
  function Strip(s: string): (r: string)
    ensures r == "" <==> AllSpace(s)
    ensures r != "" ==> !IsSpace(r[0]) && !IsSpace(r[|r| - 1])
    ensures |r| <= |s|
    ensures exists i, j :: 0 <= i <= j <= |s| && r == s[i..j] && AllSpace(s[..i]) && AllSpace(s[j..])
  {
    var start := LeadingSpaces(s);
    if start == |s| then
      assert s[..start] == s && s[|s|..|s|] == "" && s[|s|..] == "";
      ""
    else
      var stop := |s| - TrailingSpaces(s);
      assert !IsSpace(s[start]);
      assert start < stop;
      s[start..stop]
  }

  /** A string with no surrounding whitespace is its own strip. */
  lemma StripOfTrimmed(core: string)
    requires core != [] ==> !IsSpace(core[0]) && !IsSpace(core[|core| - 1])
    ensures Strip(core) == core
  {
    if core != [] {
      assert LeadingSpaces(core) == 0;
      assert TrailingSpaces(core) == 0;
      assert core[0..|core|] == core;
    }
  }

  /** `Strip` removes exactly the whitespace around a trimmed core. */
  lemma {:induction false} StripSurrounded(pre: string, core: string, post: string)
    requires AllSpace(pre) && AllSpace(post)
    requires core != [] ==> !IsSpace(core[0]) && !IsSpace(core[|core| - 1])
    ensures Strip(pre + core + post) == core
  {
    var s := pre + core + post;
    if core == [] {
      assert AllSpace(s) by {
        forall k | 0 <= k < |s| ensures IsSpace(s[k]) {
          if k < |pre| { assert s[k] == pre[k]; } else { assert s[k] == post[k - |pre|]; }
        }
      }
    } else {
      LeadingOf(pre, core + post);
      assert s == pre + (core + post);
      assert LeadingSpaces(s) == |pre|;
      TrailingOf(pre + core, post);
      assert TrailingSpaces(s) == |post|;
      assert s[|pre|..|s| - |post|] == core;
    }
  }

  lemma {:induction false} LeadingOf(pre: string, rest: string)
    requires AllSpace(pre)
    requires rest != [] && !IsSpace(rest[0])
    ensures LeadingSpaces(pre + rest) == |pre|
  {
    if pre != [] {
      assert (pre + rest)[1..] == pre[1..] + rest;
      LeadingOf(pre[1..], rest);
    } else {
      assert pre + rest == rest;
    }
  }

  lemma {:induction false} TrailingOf(rest: string, post: string)
    requires AllSpace(post)
    requires rest != [] && !IsSpace(rest[|rest| - 1])
    ensures TrailingSpaces(rest + post) == |post|
  {
    var s := rest + post;
    if post != [] {
      assert s[..|s| - 1] == rest + post[..|post| - 1];
      TrailingOf(rest, post[..|post| - 1]);
    } else {
      assert s == rest;
    }
  }

  /** Stripping twice is stripping once. */
  lemma StripIdempotent(s: string)
    ensures Strip(Strip(s)) == Strip(s)
  {
    StripOfTrimmed(Strip(s));
  }

  /** Python's `s.startswith(prefix)`. */
  predicate StartsWith(s: string, prefix: string) {
    |prefix| <= |s| && s[..|prefix|] == prefix
  }

  /** Python's `t in s` for strings: `t` occurs somewhere in `s`. */
  predicate HasSubstring(s: string, t: string)
    decreases |s|
  {
    StartsWith(s, t) || (s != [] && HasSubstring(s[1..], t))
  }

  /** `HasSubstring` finds every occurrence, wherever it sits. */
  lemma {:induction false} HasSubstringAt(s: string, t: string, i: nat)
    requires i + |t| <= |s| && s[i..i + |t|] == t
    ensures HasSubstring(s, t)
    decreases i
  {
    if i == 0 {
      assert s[..|t|] == t;
    } else {
      assert s[1..][i - 1..i - 1 + |t|] == s[i..i + |t|];
      HasSubstringAt(s[1..], t, i - 1);
    }
  }

  /** Python's `s.split(sep)[-1]`: the text after the last `sep`, or all of `s`. */
  function LastSegment(s: string, sep: char): (r: string)
    ensures sep !in r
    ensures |r| <= |s| && r == s[|s| - |r|..]
    ensures |r| < |s| ==> s[|s| - |r| - 1] == sep
  {
    if s == [] then []
    else if s[|s| - 1] == sep then []
    else
      var init := s[..|s| - 1];
      var r := LastSegment(init, sep) + [s[|s| - 1]];
      assert s[|s| - |r|..] == init[|init| - (|r| - 1)..] + [s[|s| - 1]];
      r
  }

  function DigitChar(d: nat): (c: char)
    requires d < 10
  {
    ('0' as int + d) as char
  }

  function DigitValue(c: char): int {
    c as int - '0' as int
  }

  /** Decimal digits of a natural number, without leading zeros. */
  function NatToString(n: nat): (r: string)
    ensures r != []
    ensures forall k :: 0 <= k < |r| ==> '0' <= r[k] <= '9'
    ensures |r| > 1 ==> r[0] != '0'
  {
    if n < 10 then [DigitChar(n)] else NatToString(n / 10) + [DigitChar(n % 10)]
  }

  /** Python's `str(i)` for an integer. */
  function IntToString(i: int): (r: string)
    ensures r != []
    ensures i < 0 <==> r[0] == '-'
  {
    if i < 0 then "-" + NatToString(-i) else NatToString(i)
  }

  /** The number a string of decimal digits denotes. */
  function DecimalValue(s: string): int {
    if s == [] then 0 else 10 * DecimalValue(s[..|s| - 1]) + DigitValue(s[|s| - 1])
  }

  /** Reading back the digits of `n` yields `n`. */
  lemma {:induction false} NatToStringRoundTrip(n: nat)
    ensures DecimalValue(NatToString(n)) == n
  {
    if n >= 10 {
      var s := NatToString(n);
      assert s[..|s| - 1] == NatToString(n / 10);
      NatToStringRoundTrip(n / 10);
    }
  }

  /** Python's `int(s)` on an optional minus sign followed by decimal digits. */
  function ParseInt(s: string): int {
    if s != [] && s[0] == '-' then -DecimalValue(s[1..]) else DecimalValue(s)
  }

  /** The digits of a non-negative `i` read back as `i`. */
  lemma UnsignedRoundTrip(i: int)
    requires i >= 0
    ensures ParseInt(IntToString(i)) == i
  {
    var digits := NatToString(i);
    assert IntToString(i) == digits && '0' <= digits[0] <= '9';
    NatToStringRoundTrip(i);
  }

  /** A minus sign before the digits of `n` reads back as `-n`. */
  lemma SignedRoundTrip(n: nat)
    ensures ParseInt("-" + NatToString(n)) == -(n as int)
  {
    var digits := NatToString(n);
    assert ("-" + digits)[1..] == digits;
    NatToStringRoundTrip(n);
  }

  /** A negative number is written as a minus sign before the digits of its magnitude. */
  lemma NegativeText(i: int)
    requires i < 0
    ensures IntToString(i) == "-" + NatToString(-i)
  {
  }

  /** `str(i).strip() == str(i)`: the text of an integer has no surrounding whitespace. */
  lemma IntTextStripped(i: int)
    ensures Strip(IntToString(i)) == IntToString(i)
  {
    var r := IntToString(i);
    var digits := NatToString(if i < 0 then -i else i);
    if i < 0 {
      NegativeText(i);
    }
    assert r[|r| - 1] == digits[|digits| - 1];
    StripOfTrimmed(r);
  }

  /** `int(str(i)) == i`. */
  lemma IntToStringRoundTrip(i: int)
    ensures ParseInt(IntToString(i)) == i
  {
    if i < 0 {
      NegativeText(i);
      SignedRoundTrip(-i);
    } else {
      UnsignedRoundTrip(i);
    }
  }
}

=== FILE: threading.dfy ===
/**
 * Turn threading over the message log (main_lambda.py): which AI messages
 * belong to the turn being sent, and which AI message a new user message
 * answers. Log entries are the dictionaries `model_dump()` produced or the
 * backend returned; only their `sender` and `id` keys are read here.
 */
module Threading {
  import opened Json

  predicate IsUser(e: Dict) {
    Get(e, "sender", Null) == Str("user")
  }

  predicate IsAi(e: Dict) {
    Get(e, "sender", Null) == Str("ai")
  }

  /** Number of user entries in a stretch of the log. */
  function CountUsers(s: seq<Dict>): nat {
    if s == [] then 0 else (if IsUser(s[0]) then 1 else 0) + CountUsers(s[1..])
  }

  lemma {:induction false} CountUsersAppend(a: seq<Dict>, b: seq<Dict>)
    ensures CountUsers(a + b) == CountUsers(a) + CountUsers(b)
  {
    if a != [] {
      assert (a + b)[1..] == a[1..] + b;
      CountUsersAppend(a[1..], b);
    } else {
      assert a + b == b;
    }
  }

  lemma {:induction false} NoUsersCounted(s: seq<Dict>)
    requires CountUsers(s) == 0
    ensures forall k :: 0 <= k < |s| ==> !IsUser(s[k])
  {
    if s != [] {
      NoUsersCounted(s[1..]);
      forall k | 1 <= k < |s| ensures !IsUser(s[k]) {
        assert s[k] == s[1..][k - 1];
      }
    }
  }

  /** Entry `i` is the previous user message: a user entry followed by exactly one more. */
  predicate PreviousUser(msgs: seq<Dict>, i: int) {
    0 <= i < |msgs| && IsUser(msgs[i]) && CountUsers(msgs[i + 1..]) == 1
  }

  /** A user entry at `j` adds one to the count of every stretch reaching past it. */
  lemma UsersAfter(msgs: seq<Dict>, i: int, j: int)
    requires 0 <= i < j < |msgs| && IsUser(msgs[j])
    ensures CountUsers(msgs[i + 1..]) >= 1 + CountUsers(msgs[j + 1..])
  {
    assert msgs[i + 1..] == msgs[i + 1..j] + ([msgs[j]] + msgs[j + 1..]);
    CountUsersAppend(msgs[i + 1..j], [msgs[j]] + msgs[j + 1..]);
    CountUsersAppend([msgs[j]], msgs[j + 1..]);
  }

  /** There is at most one previous user message. */
  lemma PreviousUserUnique(msgs: seq<Dict>, i: int, j: int)
    requires PreviousUser(msgs, i) && PreviousUser(msgs, j)
    ensures i == j
  {
    if i < j {
      UsersAfter(msgs, i, j);
    } else if j < i {
      UsersAfter(msgs, j, i);
    }
  }

  /**
   * The backward scan of the source loop: entries `msgs[..n]` are still to
   * be examined, from index `n - 1` down, and `seen` user entries were met
   * in `msgs[n..]`. At the second user entry it returns the entries after
   * it, without the last entry of the log.
   */
  function ScanBack(msgs: seq<Dict>, n: nat, seen: nat): (r: seq<Dict>)
    requires n <= |msgs| && seen < 2 && seen == CountUsers(msgs[n..])
    ensures CountUsers(msgs[..n]) + seen < 2 ==> r == []
    ensures CountUsers(msgs[..n]) + seen >= 2 ==>
      exists i :: PreviousUser(msgs, i) && i < n && r == msgs[i + 1..|msgs| - 1]
    decreases n
  {
    if n == 0 then []
    else
      var i := n - 1;
      assert msgs[..n] == msgs[..i] + [msgs[i]];
      CountUsersAppend(msgs[..i], [msgs[i]]);
      assert msgs[i..] == [msgs[i]] + msgs[n..];
      CountUsersAppend([msgs[i]], msgs[n..]);
      if IsUser(msgs[i]) then
        if seen + 1 == 2 then
          assert PreviousUser(msgs, i);
          msgs[i + 1..|msgs| - 1]
        else
          ScanBack(msgs, i, seen + 1)
      else
        ScanBack(msgs, i, seen)
  }

  /**
   * `past_ai_responses` of `send_user_action` and `process_user_text_input`:
   * the entries strictly between the previous user message and the last
   * entry of the log, or nothing when the log holds fewer than two user
   * messages.
   */
  function PastAiResponses(msgs: seq<Dict>): (r: seq<Dict>)
    ensures CountUsers(msgs) < 2 ==> r == []
    ensures CountUsers(msgs) >= 2 ==>
      exists i :: PreviousUser(msgs, i) && r == msgs[i + 1..|msgs| - 1]
  {
    assert msgs[..|msgs|] == msgs;
    assert msgs[|msgs|..] == [];
    ScanBack(msgs, |msgs|, 0)
  }

  /** The result is a run of entries ending just before the last entry, never the last one. */
  lemma PastEndsBeforeLast(msgs: seq<Dict>)
    ensures var r := PastAiResponses(msgs);
      msgs == [] ==> r == []
    ensures var r := PastAiResponses(msgs);
      msgs != [] ==> |r| < |msgs| && r == msgs[|msgs| - 1 - |r|..|msgs| - 1]
  {
  }

  /**
   * When the last entry is the user message just appended, as at both call
   * sites, the result holds no user message at all.
   */
  lemma PastHoldsNoUser(msgs: seq<Dict>)
    requires msgs != [] && IsUser(msgs[|msgs| - 1])
    ensures forall k :: 0 <= k < |PastAiResponses(msgs)| ==> !IsUser(PastAiResponses(msgs)[k])
  {
    var r := PastAiResponses(msgs);
    if CountUsers(msgs) >= 2 {
      var i :| PreviousUser(msgs, i) && r == msgs[i + 1..|msgs| - 1];
      assert msgs[i + 1..] == r + [msgs[|msgs| - 1]];
      CountUsersAppend(r, [msgs[|msgs| - 1]]);
      NoUsersCounted(r);
    }
  }

  function UserEntry(id: string): Dict {
    map["id" := Str(id), "sender" := Str("user")]
  }

  function AiEntry(id: string): Dict {
    map["id" := Str(id), "sender" := Str("ai")]
  }

  /** The log `[U1, A1, A2, U2, A3, U3]` threads `[A3]` into the turn of `U3`. */
  lemma ThreadingExample()
    ensures PastAiResponses([UserEntry("u1"), AiEntry("a1"), AiEntry("a2"),
                             UserEntry("u2"), AiEntry("a3"), UserEntry("u3")])
            == [AiEntry("a3")]
  {
    var msgs := [UserEntry("u1"), AiEntry("a1"), AiEntry("a2"),
                 UserEntry("u2"), AiEntry("a3"), UserEntry("u3")];
    var tail := msgs[4..];
    assert tail == [AiEntry("a3"), UserEntry("u3")];
    assert !IsUser(tail[0]) && IsUser(tail[1]);
    assert tail[1..][1..] == [];
    assert CountUsers(tail[1..]) == 1;
    assert CountUsers(tail) == 1;
    var r := PastAiResponses(msgs);
    var i :| PreviousUser(msgs, i) && r == msgs[i + 1..|msgs| - 1];
    assert PreviousUser(msgs, 3);
    PreviousUserUnique(msgs, i, 3);
  }

  /** Entry `k` is the most recent AI message of the log. */
  predicate LastAi(msgs: seq<Dict>, k: int) {
    0 <= k < |msgs| && IsAi(msgs[k]) && forall j :: k < j < |msgs| ==> !IsAi(msgs[j])
  }

  /**
   * `get_last_ai_message_id`: the `id` of the most recent AI message, or
   * `None` when there is none (or it has no id).
   */
  function LastAiMessageId(msgs: seq<Dict>): (r: Value)
    ensures (forall k :: 0 <= k < |msgs| ==> !IsAi(msgs[k])) ==> r == Null
    ensures forall k :: LastAi(msgs, k) ==> r == Get(msgs[k], "id", Null)
  {
    if msgs == [] then Null
    else if IsAi(msgs[|msgs| - 1]) then Get(msgs[|msgs| - 1], "id", Null)
    else
      var r := LastAiMessageId(msgs[..|msgs| - 1]);
      assert forall k :: LastAi(msgs, k) ==> LastAi(msgs[..|msgs| - 1], k);
      r
  }

  /** A log with some AI message has a most recent one. */
  lemma {:induction false} LastAiExists(msgs: seq<Dict>, k: int)
    requires 0 <= k < |msgs| && IsAi(msgs[k])
    ensures exists j :: LastAi(msgs, j)
    decreases |msgs| - k
  {
    if !LastAi(msgs, k) {
      var j :| k < j < |msgs| && IsAi(msgs[j]);
      LastAiExists(msgs, j);
    }
  }

  /**
   * `create_user_context`: the profile id and session id always, and
   * `in_response_to` exactly when the given id is truthy.
   */
  function CreateUserContext(profileId: Value, sessionId: Value, inResponseTo: Value): (ctx: Dict)
    ensures "interact_profile_id" in ctx && ctx["interact_profile_id"] == profileId
    ensures "sessionId" in ctx && ctx["sessionId"] == sessionId
    ensures "in_response_to" in ctx <==> Truthy(inResponseTo)
    ensures "in_response_to" in ctx ==> ctx["in_response_to"] == inResponseTo
    ensures ctx.Keys <= {"interact_profile_id", "sessionId", "in_response_to"}
  {
    var base := map["interact_profile_id" := profileId, "sessionId" := sessionId];
    if Truthy(inResponseTo) then base["in_response_to" := inResponseTo] else base
  }

  /** The context a user message gets from the log it is about to join. */
  function ThreadContext(msgs: seq<Dict>, profileId: Value, sessionId: Value): Dict {
    CreateUserContext(profileId, sessionId, LastAiMessageId(msgs))
  }

  /**
   * The threading context names an AI message only when the log has one,
   * and then it names the most recent one; it does so whenever that
   * message's id is truthy.
   */
  lemma ThreadContextAnswersLastAi(msgs: seq<Dict>, profileId: Value, sessionId: Value)
    ensures var ctx := ThreadContext(msgs, profileId, sessionId);
      "in_response_to" in ctx ==>
        exists k :: LastAi(msgs, k) && ctx["in_response_to"] == Get(msgs[k], "id", Null)
    ensures var ctx := ThreadContext(msgs, profileId, sessionId);
      forall k :: LastAi(msgs, k) && Truthy(Get(msgs[k], "id", Null)) ==> "in_response_to" in ctx
  {
    var ctx := ThreadContext(msgs, profileId, sessionId);
    if "in_response_to" in ctx {
      if exists k :: 0 <= k < |msgs| && IsAi(msgs[k]) {
        var k :| 0 <= k < |msgs| && IsAi(msgs[k]);
        LastAiExists(msgs, k);
      }
    }
  }
}

=== FILE: wrappers.dfy ===
/** Failure-compatible result types shared by every module of the model. */
module Wrappers {

  /** An optional value: a Python `None` or a present value. */
  datatype Option<+T> = None | Some(value: T) {

    /** Returns the value in Some, or a default for None. */
    function GetOr(default: T): T {
      match this
      case Some(v) => v
      case None => default
    }
  }

  /** Either a value or an error; used for validation that can fail. */
  datatype Result<+R, +E> = Success(value: R) | Failure(error: E) {

    predicate IsFailure() {
      Failure?
    }

    function PropagateFailure<U>(): Result<U, E>
      requires Failure?
    {
      Failure(error)
    }

    function Extract(): R
      requires Success?
    {
      value
    }
  }
}
